=== FILE: README.md ===
# Ayurlekha document pipeline — a Dafny model

Ayurlekha builds a patient's medical summary from the documents stored for that patient. The
pipeline has two stages:

1. **Per-document analysis** (`process_patients_and_generate_per_doc_analysis`).
   - For every patient row it downloads each medical record that has a file reference into
     `temp_medical_docs/<patient id>_<file name>`.
   - It runs the document step on each downloaded image: an extraction capability gives a
     detailed analysis and a list of medicine names. Each medicine is checked by an agent, with a
     2-second pause between checks, and the agent may call a web search that retries with
     exponential backoff.
   - It saves the analysis as `temp_medical_docs/<stem>_analysis.txt`.
2. **Aggregation** (`process_and_upload_ayurlekha`).
   - For every patient it concatenates the analysis files the glob
     `temp_medical_docs/<patient id>_*.txt` finds and writes them to
     `temp_medical_docs/<patient id>_Ayurlekha.md`.
   - It uploads that file to `medical-records/<user id>/<patient id>/Ayurlekha.md`.
   - It then stamps the patient's `ayurlekha_generated_at`.

Two more rules are modelled. One is the defaulting of the patient-level summary
(`PatientDemographics.forward`). The other is the Markdown report of illness events and the
dictionary form of an event (`analyse-medical-history.py`).

The model has one module per component:

- `WebTools`: retrying search and the medicine search query.
- `MedicineVerifier`: checking one medicine and a list of them, and the document step.
- `Summary`: summary defaulting.
- `Processor`: the per-document pipeline.
- `Report`: event serialization and the Markdown report.
- `Aggregation`: combining, writing, uploading and stamping.
- Helpers: `Wrappers`, `Text` and `Paths`. `Paths` models POSIX `os.path.basename`,
  `os.path.splitext(...)[0]` and `os.path.join`.

Every loop of the source is a method with a `while` loop. Each is proved equal to a
specification function, or, for the retry loop of `WebTools.SearchWebAsync`, described
completely by its ensures. The properties are lemmas about those functions.

External calls are parameters of total function type, keyed by the call's arguments:

- the web search, per query and attempt index;
- the agent;
- the record query, download, prediction, glob, read, write, upload and timestamp update.

Each external call yields either its result or "raised". Sleeps, writes, downloads and uploads
are returned as a sequence of effects, in the order they are attempted.

`reference_code/medical-history-myway.py` is an earlier copy of the same logic:

- `search_web_async` at lines 113-132;
- `web_verify_medicine` at lines 135-144;
- `verify_medicine` at lines 161-183;
- `verify_multiple_medicines` at lines 185-202;
- `DocumentProcessor.forward` at lines 430-447;
- the per-document pipeline at lines 479-533.

Apart from logging and printing, these copies do what the `processing_engine` code does, and they
are modelled once, by the members cited below. One difference does not reach the model: the
earlier copy's `process_patients_and_generate_per_doc_analysis()` takes no client parameter and
uses the module-level Supabase client, where `processor.py` receives the client as an argument.

Behaviours of the source that the model keeps:

- **Key errors on patient rows.** A patient row is read with `patient["id"]` and
  `patient["user_id"]` outside the per-patient `try`, so a row missing either key ends the whole
  batch (both stages).
- **Key errors on record rows.** A record without a `file_url` key fails the patient. A record
  whose `file_url` is empty or null is skipped, unless the row also lacks `id`: then the warning
  message's `rec['id']` fails the patient.
- **Aggregation order.** The aggregation combines files in the order the glob lists them, not in
  record order.
- **Glob matches.** For a patient id without `*`, `?` or `[`, the glob matches every `.txt`
  file directly under `temp_medical_docs` whose name starts with the id and `_`. A downloaded
  record whose own file name ends in `.txt` is therefore combined into the summary like an
  analysis, when the id also does not start with '/' (`Aggregation.DownloadedTextFileFound`).
- **Dots in the patient id.** The analysis file of a downloaded record is found when the
  patient id holds no `.`, no '/' and none of `*`, `?`, `[` (`Aggregation.AnalysisFileFound`).
  A `.` in the id can be taken for the extension of the name and cut it short.
- **The `generated_at` update.** A failure in the `ayurlekha_generated_at` update is reported
  by the same handler as a failed upload.

## Model

| member | source | states |
|---|---|---|
| `WebTools.SearchWebAsync` | processing_engine/common/web_tools.py:12-25 | At most `max_retries` attempts, one per iteration, every one before the last raised. The first success is returned at once. If every attempt raised, the result is "Web search verification failed after N attempts: <last error>". A backoff of base 2^k follows each failed attempt k except the last. With `max_retries <= 0` there is no attempt and the result is the "... attempts." message. Same loop as reference_code/medical-history-myway.py:113-132. |
| `WebTools.ExhaustedMessage` | processing_engine/common/web_tools.py:24 | The exhaustion text starts "Web search verification failed after ", then the retry budget in decimal, and ends with the last error's message verbatim. |
| `WebTools.NoAttemptMessage` | processing_engine/common/web_tools.py:25 | The no-attempt text starts with the same words and the retry budget in decimal, and ends with a full stop. |
| `WebTools.MedicineSearchQuery` | processing_engine/common/web_tools.py:29 | The query is the medicine name followed by " drug medication pharmaceutical". |
| `WebTools.MedicineOfSearchQuery` | processing_engine/common/web_tools.py:29 | The inverse of the query: it recognises exactly the texts that end in the suffix, and gives back what precedes it. |
| `WebTools.SearchQueryRoundTrip` | processing_engine/common/web_tools.py:29 | Stripping the suffix from a query gives back the medicine name. |
| `WebTools.WebVerifyMedicine` | processing_engine/common/web_tools.py:28-35 | Searches the medicine's query with the default 3 retries: 1 to 3 attempts, a returned result or the exhaustion message, and one backoff fewer than attempts. |
| `MedicineVerifier.StatusText` | processing_engine/usecases/ayurlekha/modules.py:33-47 | The status is "verified" exactly for a successful check and "error" exactly for a failed one. |
| `MedicineVerifier.VerificationQuery` | processing_engine/usecases/ayurlekha/modules.py:28-30 | The agent's query is "Verify if '" + name + "' is a real pharmaceutical drug or medication", with the name in the middle. |
| `MedicineVerifier.VerificationQueryInjective` | processing_engine/usecases/ayurlekha/modules.py:28-30 | Different names give different queries. |
| `MedicineVerifier.VerifyMedicine` | processing_engine/usecases/ayurlekha/modules.py:24-47 | Never raises. It echoes the name. The status is verified iff the agent answered, and then the answer's three fields are copied. When the agent threw, `if_medicine` and `correct_medicine` are empty and the result is "Verification failed: " + message. Same as reference_code/medical-history-myway.py:161-183. |
| `MedicineVerifier.PacedStepsShape` | processing_engine/usecases/ayurlekha/modules.py:54-59 | Checks run in list order. A 2-second pause sits between consecutive checks, so n names give 2n-1 steps. |
| `MedicineVerifier.PacedStepsPauses` | processing_engine/usecases/ayurlekha/modules.py:54-58 | n names take n-1 pauses, and an empty list takes none. |
| `MedicineVerifier.VerifyMultipleMedicines` | processing_engine/usecases/ayurlekha/modules.py:49-61 | One result per name, in order, with no dedup: `results[i]` is the check of `medicines[i]` and names it. The pauses and checks follow the paced shape. Same as reference_code/medical-history-myway.py:185-202. |
| `MedicineVerifier.ProcessDocument` | processing_engine/usecases/ayurlekha/modules.py:74-86 | The predicted analysis and medicine list are returned unchanged. The verifications are one per extracted medicine, in order. Same as reference_code/medical-history-myway.py:430-447. |
| `Summary.DefaultFooter` | processing_engine/usecases/ayurlekha/modules.py:144-153 | The default footer carries today's date, "Ayurlekha App", "Not a Medical Document" and the fixed disclaimer. |
| `Summary.DefaultPatient` | processing_engine/usecases/ayurlekha/modules.py:126-132 | The patient block built when the prediction has none sets every key: the patient id or "", the name or "Unknown", and the date of birth, age and blood group or "". |
| `Summary.Synthesize` | processing_engine/usecases/ayurlekha/modules.py:111-177 | Field by field: a present block passes through unchanged, keys it lacks included. A missing patient block is the default one. A missing alert block gets both keys, each from its loose attribute or "". A missing footer is the default footer. A missing meta gets version "1.0", the generation time and the ids or "". Missing lists become [] and a missing summary becomes "". |
| `Summary.CompletePredictionPassesThrough` | processing_engine/usecases/ayurlekha/modules.py:123-164 | A prediction that already has every field comes out unchanged, whatever ids and clock are given. |
| `Summary.SynthesizeIdempotent` | processing_engine/usecases/ayurlekha/modules.py:123-177 | Running the defaulting again on its own output changes nothing. |
| `Summary.OnlySummaryAndName` | processing_engine/usecases/ayurlekha/modules.py:165-177 | A prediction with only a summary and a name gets every documented default. |
| `Summary.PartialPatientBlockKept` | processing_engine/usecases/ayurlekha/modules.py:123-125 | A patient block holding only a name is passed on as it is. Its other keys stay absent, even when the id and the loose `dob` are known. |
| `Paths.Basename` | processing_engine/usecases/ayurlekha/processor.py:54 | The base name holds no '/'. |
| `Paths.BasenameIsTail` | processing_engine/usecases/ayurlekha/processor.py:54 | The base name is the tail of the path, and a '/' precedes it unless it is the whole path. |
| `Paths.BasenameUnder` | processing_engine/usecases/ayurlekha/processor.py:76 | The base name of `dir/name` is `name`, for a name without '/'. |
| `Paths.Stem` | processing_engine/usecases/ayurlekha/processor.py:76 | `splitext(...)[0]` is a prefix of the name. When it is shorter, it is cut at the last '.', and something other than dots precedes that '.'. When nothing is cut, every '.' of the name has only dots before it, so a name with no '.' is its own stem. |
| `Paths.PathJoin` | processing_engine/usecases/ayurlekha/processor.py:55-57 | An absolute second part replaces the first. Otherwise, a non-empty first part that does not end in '/' is followed by one '/' and the second part. An empty first part, or one that ends in '/', is followed directly by the second part. |
| `Paths.JoinUnder` | processing_engine/usecases/ayurlekha/processor.py:55-57 | Joining a '/'-free name under a directory puts exactly one '/' between them, and the name is the base name of the result. |
| `Paths.StemOfPrefixed` | processing_engine/usecases/ayurlekha/processor.py:76 | The stem of `<dot-free id>_<rest>` keeps the id and the '_'. |
| `Text.Join` | reference_code/analyse-medical-history.py:205-212 | `", ".join` of no items is "" and of one item is that item. |
| `Text.JoinAppend` | reference_code/analyse-medical-history.py:205 | `", ".join` of one more item appends the separator and the item. |
| `Text.NatToString` | processing_engine/common/web_tools.py:24-25 | `str(n)` for n >= 0: decimal digits without a leading zero whose value is n. |
| `Text.IntToString` | reference_code/analyse-medical-history.py:204 | `str(i)`: the digits of i, with a leading '-' for a negative i; the digits denote the magnitude. |
| `Text.IntToStringInjective` | processing_engine/common/web_tools.py:24-25 | Different integers render differently. |
| `Processor.LocalPath` | processing_engine/usecases/ayurlekha/processor.py:54-57 | For a patient id without '/', the downloaded file is named `<patient id>_<base name of the file reference>`. |
| `Processor.AnalysisPath` | processing_engine/usecases/ayurlekha/processor.py:74-77 | The analysis file is named `<stem of the image's base name>_analysis.txt`. |
| `Processor.LocalPathShape` | processing_engine/usecases/ayurlekha/processor.py:54-57 | The download path is `temp_medical_docs/<patient id>_<base name of the file reference>`, or without the directory when the id starts with '/'. |
| `Processor.AnalysisPathShape` | processing_engine/usecases/ayurlekha/processor.py:74-77 | The analysis path is `temp_medical_docs/<stem of the image's base name>_analysis.txt`. |
| `Processor.AnalysisPathOfDownload` | processing_engine/usecases/ayurlekha/processor.py:54-77 | For a downloaded record of a patient whose id holds no '/', the analysis path is `temp_medical_docs/<stem of "<patient id>_<base name>">_analysis.txt`. |
| `Processor.RaisesKeyError` | processing_engine/usecases/ayurlekha/processor.py:48-51 | A record on which the loop raises is never one it downloads. A record that is neither downloaded nor raising has an `id` and a null or empty file reference: it is skipped with a warning. |
| `Processor.FetchRaisedStays` | processing_engine/usecases/ayurlekha/processor.py:47-53 | Once a record raises, the records after it are not looked at. |
| `Processor.FetchAllMatchesReference` | processing_engine/usecases/ayurlekha/processor.py:46-67 | The download loop raises iff some record lacks the `file_url` key, or has a falsy one and no `id`. Otherwise the kept image paths are exactly the local paths of the records with a non-empty file reference whose download succeeded, in record order. The downloads attempted are exactly those records. |
| `Processor.FetchStopsAtFirstKeyError` | processing_engine/usecases/ayurlekha/processor.py:46-67 | When a record raises, the loop raises at the first such record. Its effects are the downloads of the records before it, and its paths are the ones those downloads kept. |
| `Processor.DownloadsHaveUrls` | processing_engine/usecases/ayurlekha/processor.py:48-53 | Every attempted download is of a record with a non-empty file reference, to that record's local path. Empty or null references are never downloaded. |
| `Processor.AnalyseAllAppend` | processing_engine/usecases/ayurlekha/processor.py:69-82 | The image loop's effects over two lists are the effects of each list in turn. |
| `Processor.FailedImageIsSkipped` | processing_engine/usecases/ayurlekha/processor.py:69-82 | An image whose loading or extraction raises contributes nothing, and the images after it are processed as usual. |
| `Processor.NoRecordsNoEffects` | processing_engine/usecases/ayurlekha/processor.py:43-45 | A patient without records causes no download and no document step. |
| `Processor.KeyErrorFailsPatient` | processing_engine/usecases/ayurlekha/processor.py:35-84 | A record that raises fails the patient. The downloads of the records before it stay done, and no image of the patient is analysed. |
| `Processor.BatchRaisedStays` | processing_engine/usecases/ayurlekha/processor.py:32-34 | After the batch raises, later patients change nothing. |
| `Processor.BatchAppend` | processing_engine/usecases/ayurlekha/processor.py:32-84 | After a prefix that does not raise, the rest of the batch runs exactly as it would on its own. |
| `Processor.FailureIsolatedPerPatient` | processing_engine/usecases/ayurlekha/processor.py:83-84 | A patient whose turn fails does not stop the patients after it. |
| `Processor.MissingPatientKeyStopsBatch` | processing_engine/usecases/ayurlekha/processor.py:33-34 | A patient row without `id` or `user_id` ends the batch. |
| `Processor.DownloadRecords` | processing_engine/usecases/ayurlekha/processor.py:46-67 | The record loop computes the download specification. Same as reference_code/medical-history-myway.py:495-516. |
| `Processor.AnalyseImages` | processing_engine/usecases/ayurlekha/processor.py:68-82 | The image loop computes the analysis specification: for each image whose prediction succeeds, its medicine checks and then its analysis saved at the analysis path. Same as reference_code/medical-history-myway.py:517-531. |
| `Processor.ProcessPatient` | processing_engine/usecases/ayurlekha/processor.py:35-84 | One patient's turn. A failed records query fails the patient. An empty result skips the patient. Otherwise downloads happen, then the image loop runs unless the download loop raised. |
| `Processor.ProcessPatientsAndGeneratePerDocAnalysis` | processing_engine/usecases/ayurlekha/processor.py:30-84 | The patient loop computes the batch specification. An empty patient list does nothing and completes. Same as reference_code/medical-history-myway.py:479-533. |
| `Report.SerializeIllnessDetails` | reference_code/analyse-medical-history.py:84-96 | The dictionary form has one entry per key. The period is its one text value, and every other field is a list. |
| `Report.SerializedKeys` | reference_code/analyse-medical-history.py:84-96 | The dictionary form has exactly the nine keys `period` ... `system_notes`, in order. |
| `Report.SerializeRoundTrip` | reference_code/analyse-medical-history.py:84-96 | Every field is copied unchanged: reading the dictionary back gives the event. |
| `Report.SerializeInjective` | reference_code/analyse-medical-history.py:84-96 | Different events have different dictionary forms. |
| `Report.Listed` | reference_code/analyse-medical-history.py:206-212 | An empty list shows its placeholder ("None recorded", or "None prescribed" for medications). A non-empty list shows its ", "-join. |
| `Report.ReportHeader` | reference_code/analyse-medical-history.py:192-200 | The report starts with "# Patient Analysis Report", then "## Patient Demographics" on a line of its own. The patient's name, age in decimal and gender follow their labels "- **Name:** ", "- **Age:** " and "- **Gender:** ", one per line. A blank line follows, and the opening ends with "## Illness History", so the events follow that heading. |
| `Report.EventLine` | reference_code/analyse-medical-history.py:205-212 | Line k shows its title and its list ", "-joined when the list is not empty. An empty list shows "None prescribed" for the medications, "None recorded" for complaints, diagnosis, treatment, tests, procedures and system notes, and nothing for the department. |
| `Report.EventLineList` | reference_code/analyse-medical-history.py:205-212 | An event has eight lines, line k being `EventLine(k)`. |
| `Report.EventLines` | reference_code/analyse-medical-history.py:205-212 | An event's bullet lines end with a line break. |
| `Report.LineInPlace` | reference_code/analyse-medical-history.py:205-212 | In text written line after line, line k sits unchanged right after the lines before it. |
| `Report.EventLinesInOrder` | reference_code/analyse-medical-history.py:205-212 | The event's text holds each of its eight lines, in order, each right after the ones before it. |
| `Report.EmptyDepartmentShown` | reference_code/analyse-medical-history.py:205 | An event whose department list is empty opens with "- **Department:** " and a line break. |
| `Report.NoMedicationsShown` | reference_code/analyse-medical-history.py:209 | An event without medications shows "- **Medications:** None prescribed" as its fifth line, right after the first four. |
| `Report.PlaceholderLines` | reference_code/analyse-medical-history.py:205-209 | The exact department line for an empty list, and the exact medications line with its placeholder. |
| `Report.EventBlock` | reference_code/analyse-medical-history.py:203-213 | An event's block opens on a new line with "### Illness Event " and its number in decimal. Then " (", the event's period and ")" end the heading line, and the event's lines (`Report.EventLines`) close the block. |
| `Report.AppendedNumbersFromOne` | reference_code/analyse-medical-history.py:202-213 | The blocks appended by the loop are the events in list order, numbered consecutively from 1. |
| `Report.AppendedSplit` | reference_code/analyse-medical-history.py:202-213 | Rendering a list split in two renders the first part, and the second part continues the numbering. |
| `Report.AppendNumbered` | reference_code/analyse-medical-history.py:202-213 | The `+=` loop over `enumerate(items, 1)` appends each item's numbered block to the start text. |
| `Report.RenderMarkdown` | reference_code/analyse-medical-history.py:192-213 | The report is the fixed header with name, age and gender, then one block per event. Each block has the heading "Illness Event k (period)", then the event's lines (`Report.EventBlock`), which are its eight lines in order (`Report.EventLinesInOrder`). Each line shows its list joined, or its placeholder when empty, with no placeholder for the department (`Report.EventLine`). |
| `Aggregation.Section` | reference_code/analyse-medical-history.py:245 | A file's section opens with "\n--- Analysis from ", then the file's base name. It holds the file's text verbatim and ends with a line break. |
| `Aggregation.SummaryPath` | reference_code/analyse-medical-history.py:249 | The local summary `temp_medical_docs/<patient id>_Ayurlekha.md` never matches the patient's analysis glob, so a later run does not combine it. |
| `Aggregation.RemoteSummaryPath` | reference_code/analyse-medical-history.py:254-256 | The upload path is `medical-records/`, the user id, '/', the patient id, '/' and `Ayurlekha.md`, in that order. Its file name is always `Ayurlekha.md`. |
| `Aggregation.CombinedAppend` | reference_code/analyse-medical-history.py:240-247 | Combining two lists of files one after the other concatenates their combined analyses. |
| `Aggregation.UnreadableFileSkipped` | reference_code/analyse-medical-history.py:242-247 | An unreadable file contributes nothing. |
| `Aggregation.ReadableFileSection` | reference_code/analyse-medical-history.py:243-245 | A readable file contributes "\n--- Analysis from <base name> ---\n<content>\n" in its place. |
| `Aggregation.SectionNamesFile` | reference_code/analyse-medical-history.py:245 | A file of the documents directory is announced by its own file name. |
| `Aggregation.NoFilesNothingWritten` | reference_code/analyse-medical-history.py:233-236 | A patient without analysis files is skipped: nothing is written or uploaded. |
| `Aggregation.PatientSequenced` | reference_code/analyse-medical-history.py:249-273 | Within a patient's turn, the upload follows the successful write of the file it uploads. The timestamp update follows the successful upload of that patient's summary. |
| `Aggregation.BatchSequenced` | reference_code/analyse-medical-history.py:228-275 | The same order holds across the whole batch. |
| `Aggregation.BatchRaisedStays` | reference_code/analyse-medical-history.py:228-230 | After the batch raises, later patients change nothing. |
| `Aggregation.MissingPatientKeyStopsBatch` | reference_code/analyse-medical-history.py:229-230 | A patient row without `id` or `user_id` ends the batch. |
| `Aggregation.RemoteSummaryPathInjective` | reference_code/analyse-medical-history.py:254-256 | `medical-records/<user>/<patient>/Ayurlekha.md` determines both ids when user ids hold no '/'. |
| `Aggregation.AnalysisFileFound` | reference_code/analyse-medical-history.py:233 | The analysis the first stage saves for a downloaded record matches the patient's glob, when the id holds no '/', no '.' and none of `*`, `?`, `[`. |
| `Aggregation.DownloadedTextFileFound` | reference_code/analyse-medical-history.py:233 | For a patient id that does not start with '/' and holds none of `*`, `?`, `[`, a downloaded record whose file name ends in ".txt" matches the same glob. |
| `Aggregation.CombineAnalyses` | reference_code/analyse-medical-history.py:240-247 | The `+=` loop computes the combined analysis in glob order. |
| `Aggregation.ProcessPatient` | reference_code/analyse-medical-history.py:231-275 | One patient's turn: glob, combine, write, upload, stamp. A failed write stops the turn. A failed upload or update is reported and the turn ends. |
| `Aggregation.ProcessAndUploadAyurlekha` | reference_code/analyse-medical-history.py:226-275 | The patient loop computes the batch specification, with every upload and timestamp update in order. |

## Left out

- **Concurrency and timing.** The asyncio event loop, `run_in_executor` and the `RuntimeError`
  fallback in `web_verify_medicine` are left out. So are real sleeping and the
  `random.uniform(0, 1)` jitter, which is floating point. Only the integer base `2**attempt` of
  each backoff and the 2-second pauses are recorded.
- **External services.** The LLM calls (`ChainOfThought`, `ReAct`), DuckDuckGo search, Supabase
  storage and tables, and file I/O are oracles. A failure of the initial `patients` query is
  not modelled: the patient list is an input.
- **Oracle determinism.** Two calls with the same arguments give the same outcome (for example,
  the same file downloaded twice to the same path).
- **Clock.** `datetime.now` is a parameter: today's date and the generation time for the
  summary, and one timestamp for the whole aggregation batch.
- **Processor file system.** `os.makedirs` is left out. Saving an analysis is recorded as an
  attempted write. A write that raises is caught for that image and changes nothing else, so it
  leaves the same trace and is not modelled separately.
- **Attribute values.** `getattr` with an attribute that is present but null is not
  distinguished from a present value. A missing attribute is `None` in the model.
- **Report script I/O.** The top-level script of `analyse-medical-history.py` (lines 149-217)
  is left out: reading the history file, the demographics and drug-analysis LLM calls, printing,
  and writing the JSON and Markdown files. Only the serialization of one event and the Markdown
  rendering are modelled. `json.dump` formatting is not modelled.
- **Unmodelled modules.** `DocumentMetadataModule` and the `dspy_modules` wrappers are pure LLM
  calls. The `medicalAgent`, evaluation and doctor modules of the earlier copy are LLM-only, and
  `medicalAgent.forward` calls undefined names.
- **Imports.** `modules.py` imports `AyurlekhaSummarySignature` and `DocumentMetadataSignature`,
  which `signatures.py` does not define. The model assumes the imports resolve.
- **Glob semantics.** The glob is an oracle that returns a list of paths. `MatchesAnalysisGlob`
  describes the paths it matches but does not constrain the oracle. It reads the patient id
  literally, which is what the glob does only for ids without `*`, `?` or `[`. An id holding
  one of them is a pattern of its own. The model does not say which files the glob finds for
  such an id, and the lemmas about matches require `LiteralInGlob`.

=== FILE: aggregation.dfy ===
/** The aggregation pipeline: for every patient, concatenate the per-document analyses found
    on disk into one summary file, upload it, and record when it was generated. A patient's
    failures are contained in the patient; a patient row without its id keys stops the batch. */
module Aggregation {
  import opened Wrappers
  import opened Paths
  import P = Processor

  /** Storage bucket the summary is uploaded to. */
  const Bucket: string := "medical-documents"

  /** Extension of the analysis files the glob picks up. */
  const TextExtension: string := ".txt"

  /** The glob pattern for a patient's analysis files. */
  function AnalysisGlob(patientId: string): string {
    P.DocsDir + "/" + patientId + "_*" + TextExtension
  }

  /** The paths the pattern matches when the id is read literally: '*' stands for any text
      without a '/'. */
  ghost predicate MatchesAnalysisGlob(path: string, patientId: string) {
    exists mid: string :: '/' !in mid && path == P.DocsDir + "/" + patientId + "_" + mid + TextExtension
  }

  /** The glob reads the id literally only when it holds none of the characters that start
      a wildcard or a character class. */
  predicate LiteralInGlob(patientId: string) {
    '*' !in patientId && '?' !in patientId && '[' !in patientId
  }

  /** Moving the parentheses of a six-part concatenation. */
  lemma Regroup(a: string, b: string, c: string, d: string, e: string, f: string)
    ensures a + (b + c + d) + (e + f) == a + b + c + (d + e) + f
  {
  }

  /** The analysis file the per-document pipeline saves for a downloaded record is one the
      aggregation's glob finds, when the patient id holds neither '/' nor '.' and none of the
      glob's special characters. (A '.' in the id could be taken for the extension and cut
      the id short.) */
  lemma AnalysisFileFound(patientId: string, url: string)
    requires '/' !in patientId && '.' !in patientId && LiteralInGlob(patientId)
    ensures MatchesAnalysisGlob(P.AnalysisPath(P.LocalPath(patientId, url)), patientId)
  {
    var base := Basename(url);
    P.AnalysisPathOfDownload(patientId, url);
    var m := StemOfPrefixed(patientId, base);
    NoSlashInPrefix(base, m);
    AnalysisNameMatches(patientId, base[..m]);
  }

  /** An analysis saved under the documents directory for a stem of the form `<id>_<rest>`
      matches the patient's glob. */
  lemma AnalysisNameMatches(patientId: string, rest: string)
    requires '/' !in rest
    ensures MatchesAnalysisGlob(P.DocsDir + "/" + (patientId + "_" + rest) + P.AnalysisSuffix, patientId)
  {
    var mid := rest + "_analysis";
    assert '/' !in mid;
    assert P.AnalysisSuffix == "_analysis" + TextExtension;
    Regroup(P.DocsDir + "/", patientId, "_", rest, "_analysis", TextExtension);
  }

  /** The glob is not limited to analyses: a downloaded record whose file name ends in
      ".txt" lies under the same pattern and is combined into the summary as well, for an id
      that holds none of the glob's special characters and does not start with '/'. */
  lemma DownloadedTextFileFound(patientId: string, url: string, stem: string)
    requires (|patientId| == 0 || patientId[0] != '/') && LiteralInGlob(patientId)
    requires Basename(url) == stem + TextExtension
    ensures MatchesAnalysisGlob(P.LocalPath(patientId, url), patientId)
  {
    P.LocalPathShape(patientId, url);
    assert '/' !in stem by {
      forall k | 0 <= k < |stem| ensures stem[k] != '/' {
        assert stem[k] == Basename(url)[k];
        assert Basename(url)[k] in Basename(url);
      }
    }
    assert P.LocalPath(patientId, url) == P.DocsDir + "/" + patientId + "_" + stem + TextExtension;
  }

  /** Where the combined summary is written locally. It ends in ".md", so the patient's
      glob never picks it up as an analysis on a later run. */
  function SummaryPath(patientId: string): (r: string)
    ensures !MatchesAnalysisGlob(r, patientId)
  {
    var r := P.DocsDir + "/" + patientId + "_Ayurlekha.md";
    assert r[|r| - 1] == 'd';
    r
  }

  /** Folder of the storage bucket that holds the users' records. */
  const RecordsFolder: string := "medical-records/"

  /** Name of the combined summary in the storage bucket. */
  const SummaryFile: string := "Ayurlekha.md"

  /** Where the combined summary is uploaded: `medical-records/<user id>/<patient id>/`
      followed by the file name `Ayurlekha.md`. */
  function RemoteSummaryPath(userId: string, patientId: string): (r: string)
    ensures |RecordsFolder| < |r| && r[..|RecordsFolder|] == RecordsFolder
    ensures Basename(r) == SummaryFile
    ensures var n := |RecordsFolder|;
            |r| == n + |userId| + 1 + |patientId| + 1 + |SummaryFile| &&
            r[n..n + |userId|] == userId &&
            r[n + |userId|] == '/' &&
            r[n + |userId| + 1..n + |userId| + 1 + |patientId|] == patientId &&
            r[n + |userId| + 1 + |patientId|..] == "/" + SummaryFile
  {
    var dir := RecordsFolder + userId + "/" + patientId;
    BasenameUnder(dir, SummaryFile);
    dir + "/" + SummaryFile
  }

  /** The collaborators, as oracles of their arguments:
      `glob(pattern)`: the matching paths, in the order the file system lists them;
      `read(path)`: the file's text (None: opening or reading raised);
      `write(path, text)`: whether writing the file returned normally;
      `upload(bucket, remote, local)`: whether the upload returned normally;
      `stamp(patientId, at)`: whether updating the patient's generation time returned normally. */
  datatype Storage = Storage(
    glob: string -> seq<string>,
    read: string -> Option<string>,
    write: (string, string) -> bool,
    upload: (string, string, string) -> bool,
    stamp: (string, string) -> bool)

  /** Externally visible effects, in the order they are attempted. */
  datatype Effect =
    | WriteFile(path: string, content: string)
    | Upload(bucket: string, remotePath: string, localPath: string)
    | Stamp(patientId: string, at: string)

  /** Opening of a section, before the file's name. */
  const SectionOpen: string := "\n--- Analysis from "

  /** The block one analysis file contributes to the summary: a header line naming the file
      by its base name, then the file's text verbatim, then a line break. */
  function Section(path: string, content: string): (r: string)
    ensures |SectionOpen| + |Basename(path)| + |content| < |r|
    ensures r[..|SectionOpen|] == SectionOpen
    ensures r[|SectionOpen|..|SectionOpen| + |Basename(path)|] == Basename(path)
    ensures r[|r| - 1 - |content|..|r| - 1] == content && r[|r| - 1] == '\n'
  {
    SectionOpen + Basename(path) + " ---\n" + content + "\n"
  }

  /** What one file contributes: its section, or nothing when it cannot be read. */
  function Contribution(path: string, read: string -> Option<string>): string {
    match read(path)
    case Some(content) => Section(path, content)
    case None => ""
  }

  /** The parts of the items concatenated in list order. */
  function Concat<T>(xs: seq<T>, part: T -> string): string {
    if |xs| == 0 then "" else Concat(xs[..|xs| - 1], part) + part(xs[|xs| - 1])
  }

  /** Concatenating over two lists one after the other. */
  lemma {:induction false} ConcatAppend<T>(xs: seq<T>, ys: seq<T>, part: T -> string)
    ensures Concat(xs + ys, part) == Concat(xs, part) + Concat(ys, part)
    decreases |ys|
  {
    if |ys| == 0 {
      assert xs + ys == xs;
    } else {
      var init := ys[..|ys| - 1];
      assert (xs + ys)[..|xs + ys| - 1] == xs + init;
      ConcatAppend(xs, init, part);
    }
  }

  /** The combined analysis as the `+=` loop builds it, file by file in glob order. */
  function Combined(files: seq<string>, read: string -> Option<string>): string {
    Concat(files, f => Contribution(f, read))
  }

  /** Combining two lists of files one after the other concatenates their summaries. */
  lemma CombinedAppend(fs: seq<string>, gs: seq<string>, read: string -> Option<string>)
    ensures Combined(fs + gs, read) == Combined(fs, read) + Combined(gs, read)
  {
    ConcatAppend(fs, gs, f => Contribution(f, read));
  }

  /** An unreadable file contributes nothing: the summary is the one without it. */
  lemma UnreadableFileSkipped(fs: seq<string>, f: string, gs: seq<string>, read: string -> Option<string>)
    requires read(f).None?
    ensures Combined(fs + [f] + gs, read) == Combined(fs + gs, read)
  {
    CombinedAppend(fs + [f], gs, read);
    CombinedAppend(fs, [f], read);
    CombinedAppend(fs, gs, read);
    assert [f][..0] == [];
  }

  /** A readable file contributes its section, in its place in the glob order. */
  lemma ReadableFileSection(fs: seq<string>, f: string, gs: seq<string>, read: string -> Option<string>)
    requires read(f).Some?
    ensures Combined(fs + [f] + gs, read) == Combined(fs, read) + Section(f, read(f).value) + Combined(gs, read)
  {
    CombinedAppend(fs + [f], gs, read);
    CombinedAppend(fs, [f], read);
    assert [f][..0] == [];
  }

  /** A file of the documents directory is announced by its own name. */
  lemma SectionNamesFile(name: string, content: string)
    requires '/' !in name
    ensures Section(P.DocsDir + "/" + name, content)
              == "\n--- Analysis from " + name + " ---\n" + content + "\n"
  {
    BasenameUnder(P.DocsDir, name);
  }

  /** How a patient's turn ended. `UploadFailed` covers both the upload and the update of
      the generation time, which share one handler. */
  datatype PatientOutcome = NoFiles | Failed | UploadFailed | Stamped

  datatype PatientRun = PatientRun(effects: seq<Effect>, outcome: PatientOutcome)

  /** One patient's turn inside its try block; `now` is the generation time stamped. */
  function RunPatient(patientId: string, userId: string, st: Storage, now: string): PatientRun {
    var files := st.glob(AnalysisGlob(patientId));
    if files == [] then PatientRun([], NoFiles)
    else
      var combined := Combined(files, st.read);
      var local := SummaryPath(patientId);
      var written := [WriteFile(local, combined)];
      if !st.write(local, combined) then PatientRun(written, Failed)
      else
        var remote := RemoteSummaryPath(userId, patientId);
        var uploaded := written + [Upload(Bucket, remote, local)];
        if !st.upload(Bucket, remote, local) then PatientRun(uploaded, UploadFailed)
        else
          var stamped := uploaded + [Stamp(patientId, now)];
          PatientRun(stamped, if st.stamp(patientId, now) then Stamped else UploadFailed)
  }

  /** A patient without analysis files is skipped: nothing is written or uploaded. */
  lemma NoFilesNothingWritten(patientId: string, userId: string, st: Storage, now: string)
    requires st.glob(AnalysisGlob(patientId)) == []
    ensures RunPatient(patientId, userId, st, now) == PatientRun([], NoFiles)
  {
  }

  /** The order the source keeps: a summary is uploaded only right after it was written
      successfully to the file it is uploaded from, and a patient's generation time is
      stamped only right after a successful upload of that patient's summary. */
  predicate Sequenced(effects: seq<Effect>, st: Storage) {
    (forall i :: 0 <= i < |effects| && effects[i].Upload? ==>
       i > 0 && effects[i - 1].WriteFile? && effects[i - 1].path == effects[i].localPath
       && st.write(effects[i - 1].path, effects[i - 1].content))
    && (forall i :: 0 <= i < |effects| && effects[i].Stamp? ==>
       i > 0 && effects[i - 1].Upload? && effects[i - 1].localPath == SummaryPath(effects[i].patientId)
       && st.upload(effects[i - 1].bucket, effects[i - 1].remotePath, effects[i - 1].localPath))
  }

  /** A sequence that does not open with an upload or a stamp. */
  predicate OpensFree(effects: seq<Effect>) {
    |effects| > 0 ==> effects[0].WriteFile?
  }

  /** One patient's effects keep the order. */
  lemma PatientSequenced(patientId: string, userId: string, st: Storage, now: string)
    ensures Sequenced(RunPatient(patientId, userId, st, now).effects, st)
    ensures OpensFree(RunPatient(patientId, userId, st, now).effects)
  {
    var files := st.glob(AnalysisGlob(patientId));
    if files != [] {
      var combined := Combined(files, st.read);
      var local := SummaryPath(patientId);
      var remote := RemoteSummaryPath(userId, patientId);
      var es := RunPatient(patientId, userId, st, now).effects;
      assert es == [WriteFile(local, combined)] || !st.write(local, combined) || (
        es[..2] == [WriteFile(local, combined), Upload(Bucket, remote, local)] &&
        (es == es[..2] || (st.upload(Bucket, remote, local) && es == es[..2] + [Stamp(patientId, now)])));
    }
  }

  /** Keeping the order survives concatenation with a part that does not open with an
      upload or a stamp. */
  lemma SequencedAppend(xs: seq<Effect>, ys: seq<Effect>, st: Storage)
    requires Sequenced(xs, st) && Sequenced(ys, st) && OpensFree(ys)
    ensures Sequenced(xs + ys, st)
  {
    var zs := xs + ys;
    forall i | 0 <= i < |zs| && zs[i].Upload?
      ensures i > 0 && zs[i - 1].WriteFile? && zs[i - 1].path == zs[i].localPath
              && st.write(zs[i - 1].path, zs[i - 1].content)
    {
      if i >= |xs| {
        assert zs[i] == ys[i - |xs|];
        assert zs[i - 1] == ys[i - |xs| - 1];
      }
    }
    forall i | 0 <= i < |zs| && zs[i].Stamp?
      ensures i > 0 && zs[i - 1].Upload? && zs[i - 1].localPath == SummaryPath(zs[i].patientId)
              && st.upload(zs[i - 1].bucket, zs[i - 1].remotePath, zs[i - 1].localPath)
    {
      if i >= |xs| {
        assert zs[i] == ys[i - |xs|];
        assert zs[i - 1] == ys[i - |xs| - 1];
      }
    }
  }

  /** The whole run: effects, one outcome per patient reached, and whether an exception
      escaped the batch. */
  datatype Run = Run(effects: seq<Effect>, outcomes: seq<PatientOutcome>, raised: bool)

  /** The loop over patients. Reading the row's `id` and `user_id` happens before the
      patient's try block, so a row missing either key ends the batch. */
  function RunBatch(patients: seq<P.PatientRow>, st: Storage, now: string): Run
    decreases |patients|
  {
    if |patients| == 0 then Run([], [], false)
    else
      var r := RunBatch(patients[..|patients| - 1], st, now);
      var row := patients[|patients| - 1];
      if r.raised then r
      else if row.id.None? || row.userId.None? then r.(raised := true)
      else
        var pr := RunPatient(row.id.value, row.userId.value, st, now);
        Run(r.effects + pr.effects, r.outcomes + [pr.outcome], false)
  }

  /** Across the whole batch, every upload follows the successful write of its file and
      every stamp follows the successful upload of that patient's summary. */
  lemma {:induction false} BatchSequenced(patients: seq<P.PatientRow>, st: Storage, now: string)
    ensures Sequenced(RunBatch(patients, st, now).effects, st)
    decreases |patients|
  {
    if |patients| > 0 {
      var init := patients[..|patients| - 1];
      var row := patients[|patients| - 1];
      BatchSequenced(init, st, now);
      var r := RunBatch(init, st, now);
      if !r.raised && row.id.Some? && row.userId.Some? {
        PatientSequenced(row.id.value, row.userId.value, st, now);
        SequencedAppend(r.effects, RunPatient(row.id.value, row.userId.value, st, now).effects, st);
      }
    }
  }

  /** Once the batch has raised, later patients change nothing. */
  lemma {:induction false} BatchRaisedStays(ps: seq<P.PatientRow>, qs: seq<P.PatientRow>, st: Storage, now: string)
    requires RunBatch(ps, st, now).raised
    ensures RunBatch(ps + qs, st, now) == RunBatch(ps, st, now)
    decreases |qs|
  {
    if |qs| == 0 {
      assert ps + qs == ps;
    } else {
      var init := qs[..|qs| - 1];
      BatchRaisedStays(ps, init, st, now);
      assert (ps + qs)[..|ps + qs| - 1] == ps + init;
    }
  }

  /** A patient row missing `id` or `user_id` ends the batch: nobody after it is processed. */
  lemma MissingPatientKeyStopsBatch(ps: seq<P.PatientRow>, row: P.PatientRow, qs: seq<P.PatientRow>,
                                    st: Storage, now: string)
    requires !RunBatch(ps, st, now).raised && (row.id.None? || row.userId.None?)
    ensures RunBatch(ps + [row] + qs, st, now) == RunBatch(ps, st, now).(raised := true)
  {
    assert (ps + [row])[..|ps|] == ps;
    BatchRaisedStays(ps + [row], qs, st, now);
  }

  /** Summaries of different patients, or of different users, go to different places,
      as long as the user ids hold no '/'. */
  lemma RemoteSummaryPathInjective(u1: string, p1: string, u2: string, p2: string)
    requires '/' !in u1 && '/' !in u2
    requires RemoteSummaryPath(u1, p1) == RemoteSummaryPath(u2, p2)
    ensures u1 == u2 && p1 == p2
  {
    var s1 := RemoteSummaryPath(u1, p1);
    var s2 := RemoteSummaryPath(u2, p2);
    var n := |RecordsFolder|;
    FirstSlashAfterPrefix(u1, p1);
    FirstSlashAfterPrefix(u2, p2);
    assert |u1| == |u2|;
    assert u1 == s1[n..n + |u1|];
    assert u2 == s2[n..n + |u2|];
    assert p1 == s1[n + |u1| + 1..|s1| - |"/Ayurlekha.md"|];
    assert p2 == s2[n + |u2| + 1..|s2| - |"/Ayurlekha.md"|];
  }

  /** In a remote path, the user id is followed by the first '/' after the records folder. */
  lemma FirstSlashAfterPrefix(u: string, p: string)
    requires '/' !in u
    ensures forall k :: |RecordsFolder| <= k < |RecordsFolder| + |u| ==> RemoteSummaryPath(u, p)[k] != '/'
    ensures RemoteSummaryPath(u, p)[|RecordsFolder| + |u|] == '/'
  {
    forall k | |RecordsFolder| <= k < |RecordsFolder| + |u|
      ensures RemoteSummaryPath(u, p)[k] != '/'
    {
      assert RemoteSummaryPath(u, p)[k] == u[k - |RecordsFolder|];
      assert u[k - |RecordsFolder|] in u;
    }
  }

  /** One patient's turn of the aggregation loop. */
  method ProcessPatient(patientId: string, userId: string, st: Storage, now: string)
    returns (pr: PatientRun)
    ensures pr == RunPatient(patientId, userId, st, now)
  {
    var files := st.glob(AnalysisGlob(patientId));
    if files == [] {
      return PatientRun([], NoFiles);
    }
    var combined := CombineAnalyses(files, st.read);
    var local := SummaryPath(patientId);
    var effects := [WriteFile(local, combined)];
    if !st.write(local, combined) {
      return PatientRun(effects, Failed);
    }
    var remote := RemoteSummaryPath(userId, patientId);
    effects := effects + [Upload(Bucket, remote, local)];
    if !st.upload(Bucket, remote, local) {
      return PatientRun(effects, UploadFailed);
    }
    effects := effects + [Stamp(patientId, now)];
    var ok := st.stamp(patientId, now);
    pr := PatientRun(effects, if ok then Stamped else UploadFailed);
  }

  /** The `+=` loop over a patient's analysis files, in glob order. */
  method CombineAnalyses(files: seq<string>, read: string -> Option<string>) returns (combined: string)
    ensures combined == Combined(files, read)
  {
    combined := "";
    var i := 0;
    while i < |files|
      invariant 0 <= i <= |files|
      invariant combined == Combined(files[..i], read)
    {
      assert files[..i + 1][..i] == files[..i];
      match read(files[i]) {
        case Some(content) =>
          combined := combined + Section(files[i], content);
        case None =>
      }
      i := i + 1;
    }
    assert files[..i] == files;
  }

  /** `process_and_upload_ayurlekha`: every patient in turn. */
  method ProcessAndUploadAyurlekha(patients: seq<P.PatientRow>, st: Storage, now: string) returns (run: Run)
    ensures run == RunBatch(patients, st, now)
    ensures Sequenced(run.effects, st)
  {
    run := Run([], [], false);
    var i := 0;
    while i < |patients|
      invariant 0 <= i <= |patients|
      invariant run == RunBatch(patients[..i], st, now)
      invariant !run.raised
    {
      var row := patients[i];
      assert patients[..i + 1][..i] == patients[..i];
      if row.id.None? || row.userId.None? {
        run := run.(raised := true);
        BatchRaisedStays(patients[..i + 1], patients[i + 1..], st, now);
        assert patients[..i + 1] + patients[i + 1..] == patients;
        BatchSequenced(patients, st, now);
        return;
      }
      var pr := ProcessPatient(row.id.value, row.userId.value, st, now);
      run := Run(run.effects + pr.effects, run.outcomes + [pr.outcome], false);
      i := i + 1;
    }
    assert patients[..i] == patients;
    BatchSequenced(patients, st, now);
  }
}

=== FILE: medicine_verifier.dfy ===
/** Medicine-name verification: one call of the checking agent per name, an error
    record instead of an exception, and a fixed pause between consecutive names; and
    the document step that feeds the extracted names to it. */
module MedicineVerifier {

  /** The two values of a verification record's `status` key. */
  datatype Status = Verified | Error

  function StatusText(s: Status): (t: string)
    ensures t == "verified" <==> s == Verified
    ensures t == "error" <==> s == Error
  {
    match s
    case Verified => "verified"
    case Error => "error"
  }

  /** What one call of the checking agent does for a query: it answers the three output
      fields, or raises an exception whose message is `message`. */
  datatype AgentReply =
    | Answered(verificationResult: string, correctMedicine: string, ifMedicine: string)
    | Threw(message: string)

  /** The checking agent: its reply to each query. */
  type Agent = string -> AgentReply

  /** One verification record, keyed as the dictionary the checker returns. */
  datatype Verification = Verification(
    medicine: string,
    ifMedicine: string,
    verificationResult: string,
    correctMedicine: string,
    status: Status)

  /** Seconds slept between two consecutive medicines. */
  const PauseSeconds: nat := 2

  const QueryPrefix: string := "Verify if '"
  const QuerySuffix: string := "' is a real pharmaceutical drug or medication"
  const FailurePrefix: string := "Verification failed: "

  /** The question put to the agent about one medicine name. */
  function VerificationQuery(name: string): (q: string)
    ensures |q| == |QueryPrefix| + |name| + |QuerySuffix|
    ensures q[..|QueryPrefix|] == QueryPrefix
    ensures q[|QueryPrefix|..|QueryPrefix| + |name|] == name
    ensures q[|QueryPrefix| + |name|..] == QuerySuffix
  {
    QueryPrefix + name + QuerySuffix
  }

  /** Distinct names are asked distinct questions. */
  lemma VerificationQueryInjective(a: string, b: string)
    requires VerificationQuery(a) == VerificationQuery(b)
    ensures a == b
  {
    assert |a| == |b|;
    assert a == VerificationQuery(a)[|QueryPrefix|..|QueryPrefix| + |a|];
  }

  /** `verify_medicine`: never raises; the record names the medicine it was asked about,
      is `verified` exactly when the agent answered, copies the answer then, and otherwise
      carries empty fields and the failure message. */
  function VerifyMedicine(name: string, agent: Agent): (v: Verification)
    ensures v.medicine == name
    ensures v.status == Verified <==> agent(VerificationQuery(name)).Answered?
    ensures agent(VerificationQuery(name)).Answered? ==>
              var a := agent(VerificationQuery(name));
              v.ifMedicine == a.ifMedicine && v.verificationResult == a.verificationResult &&
              v.correctMedicine == a.correctMedicine
    ensures agent(VerificationQuery(name)).Threw? ==>
              v.ifMedicine == "" && v.correctMedicine == "" &&
              v.verificationResult == FailurePrefix + agent(VerificationQuery(name)).message
  {
    match agent(VerificationQuery(name))
    case Answered(result, correct, isMedicine) =>
      Verification(name, isMedicine, result, correct, Verified)
    case Threw(message) =>
      Verification(name, "", FailurePrefix + message, "", Error)
  }

  /** The observable steps of a batch of verifications: a pause, or one agent call. */
  datatype Step = Pause(seconds: nat) | Check(medicine: string)

  /** The steps of verifying `ms` in order: a check per name, preceded by a pause for
      every name but the first. */
  function PacedSteps(ms: seq<string>): (steps: seq<Step>)
    decreases |ms|
  {
    if |ms| == 0 then []
    else PacedSteps(ms[..|ms| - 1]) + (if |ms| > 1 then [Pause(PauseSeconds)] else []) + [Check(ms[|ms| - 1])]
  }

  /** Shape of the paced steps: names checked in input order at the even positions, a
      pause of two seconds at every odd position, so n names take n - 1 pauses and none
      comes before the first check. */
  lemma {:induction false} PacedStepsShape(ms: seq<string>)
    ensures |PacedSteps(ms)| == (if ms == [] then 0 else 2 * |ms| - 1)
    ensures forall i :: 0 <= i < |ms| ==> PacedSteps(ms)[2 * i] == Check(ms[i])
    ensures forall i :: 0 < i < |ms| ==> PacedSteps(ms)[2 * i - 1] == Pause(PauseSeconds)
    decreases |ms|
  {
    if |ms| > 0 {
      var init := ms[..|ms| - 1];
      PacedStepsShape(init);
      assert forall i :: 0 <= i < |init| ==> init[i] == ms[i];
    }
  }

  /** Number of pauses in a list of steps. */
  function PauseCount(steps: seq<Step>): (n: nat)
    ensures n <= |steps|
  {
    if |steps| == 0 then 0
    else PauseCount(steps[..|steps| - 1]) + (if steps[|steps| - 1].Pause? then 1 else 0)
  }

  /** Verifying n names pauses n - 1 times, and not at all for an empty list. */
  lemma {:induction false} PacedStepsPauses(ms: seq<string>)
    ensures PauseCount(PacedSteps(ms)) == (if ms == [] then 0 else |ms| - 1)
    decreases |ms|
  {
    if |ms| > 0 {
      var init := ms[..|ms| - 1];
      PacedStepsPauses(init);
      var s := PacedSteps(init);
      if |ms| > 1 {
        var s1 := s + [Pause(PauseSeconds)];
        assert s1[..|s1| - 1] == s;
        assert (s1 + [Check(ms[|ms| - 1])])[..|s1|] == s1;
      } else {
        assert (s + [Check(ms[0])])[..|s|] == s;
      }
    }
  }

  /** `verify_multiple_medicines`: one record per name, in the same order and without
      deduplication, each the record `verify_medicine` gives; with the pauses of
      `PacedSteps` between the checks. */
  method VerifyMultipleMedicines(medicines: seq<string>, agent: Agent)
    returns (results: seq<Verification>, steps: seq<Step>)
    ensures |results| == |medicines|
    ensures forall i :: 0 <= i < |medicines| ==> results[i] == VerifyMedicine(medicines[i], agent)
    ensures forall i :: 0 <= i < |medicines| ==> results[i].medicine == medicines[i]
    ensures steps == PacedSteps(medicines)
  {
    results, steps := [], [];
    var i := 0;
    while i < |medicines|
      invariant 0 <= i <= |medicines|
      invariant |results| == i
      invariant forall k :: 0 <= k < i ==> results[k] == VerifyMedicine(medicines[k], agent)
      invariant steps == PacedSteps(medicines[..i])
    {
      if i > 0 {
        steps := steps + [Pause(PauseSeconds)];
      }
      var result := VerifyMedicine(medicines[i], agent);
      steps := steps + [Check(medicines[i])];
      results := results + [result];
      assert medicines[..i + 1][..i] == medicines[..i];
      i := i + 1;
    }
    assert medicines[..i] == medicines;
  }

  /** What the extraction capability returns for one document image. */
  datatype DocPrediction = DocPrediction(detailedAnalysis: string, extractedMedicines: seq<string>)

  /** What the document step returns. */
  datatype DocResult = DocResult(
    detailedAnalysis: string,
    medicineVerifications: seq<Verification>,
    extractedMedicines: seq<string>)

  /** `DocumentProcessor.forward`, given the extraction's prediction: the extracted names go
      to the verifier, and the analysis and the names come back unchanged. */
  method ProcessDocument(prediction: DocPrediction, agent: Agent)
    returns (r: DocResult, steps: seq<Step>)
    ensures r.detailedAnalysis == prediction.detailedAnalysis
    ensures r.extractedMedicines == prediction.extractedMedicines
    ensures |r.medicineVerifications| == |prediction.extractedMedicines|
    ensures forall i :: 0 <= i < |prediction.extractedMedicines| ==>
              r.medicineVerifications[i] == VerifyMedicine(prediction.extractedMedicines[i], agent)
    ensures steps == PacedSteps(prediction.extractedMedicines)
  {
    var verifications;
    verifications, steps := VerifyMultipleMedicines(prediction.extractedMedicines, agent);
    r := DocResult(prediction.detailedAnalysis, verifications, prediction.extractedMedicines);
  }
}

=== FILE: paths.dfy ===
/** The parts of Python's `os.path` (POSIX flavour) that the pipeline uses to name files. */
module Paths {

  /** Position just after the last '/' of p; 0 when p has none. */
  function BaseStart(p: string): (k: nat)
    ensures k <= |p|
    ensures forall i :: k <= i < |p| ==> p[i] != '/'
    ensures k > 0 ==> p[k - 1] == '/'
    decreases |p|
  {
    if |p| == 0 then 0
    else if p[|p| - 1] == '/' then |p|
    else BaseStart(p[..|p| - 1])
  }

  /** `os.path.basename(p)`: everything after the last '/'. */
  function Basename(p: string): (r: string)
    ensures '/' !in r
  {
    p[BaseStart(p)..]
  }

  /** The base name is the tail of the path after its last '/'. */
  lemma BasenameIsTail(p: string)
    ensures |Basename(p)| <= |p| && p[|p| - |Basename(p)|..] == Basename(p)
    ensures |Basename(p)| < |p| ==> p[|p| - |Basename(p)| - 1] == '/'
  {
    var k := BaseStart(p);
    assert |p| - |Basename(p)| == k;
  }

  /** A name placed under a directory has that name as its basename. */
  lemma BasenameUnder(dir: string, name: string)
    requires '/' !in name
    ensures Basename(dir + "/" + name) == name
  {
    var p := dir + "/" + name;
    var k := BaseStart(p);
    assert p[|dir|] == '/';
    assert k > |dir|;
    assert p[k..] == name;
  }

  /** Joining a name without '/' under a directory that does not end in '/': one '/'
      separates them, and the name is the basename of the result. */
  lemma JoinUnder(dir: string, name: string)
    requires |dir| > 0 && dir[|dir| - 1] != '/' && '/' !in name
    ensures PathJoin(dir, name) == dir + "/" + name
    ensures Basename(PathJoin(dir, name)) == name
  {
    if |name| > 0 {
      assert name[0] in name;
    }
    BasenameUnder(dir, name);
  }

  /** A name built from a stem of a '/'-free name and a '/'-free suffix is joined under the
      directory with exactly one '/'. */
  lemma StemJoinUnder(dir: string, name: string, suffix: string)
    requires |dir| > 0 && dir[|dir| - 1] != '/' && '/' !in name && '/' !in suffix
    ensures PathJoin(dir, Stem(name) + suffix) == dir + "/" + Stem(name) + suffix
  {
    var stem := Stem(name);
    if |stem| > 0 {
      assert stem[0] == name[0];
      assert name[0] in name;
    }
    assert '/' !in stem + suffix;
    if |stem + suffix| > 0 {
      assert (stem + suffix)[0] in stem + suffix;
    }
  }

  lemma NoSlashIn3(a: string, b: string, c: string)
    requires '/' !in a && '/' !in b && '/' !in c
    ensures '/' !in a + b + c
  {
  }

  /** Re-deriving a file name from a path under the directory gives back the stem of the
      name that was placed there. */
  lemma StemOfPlacedName(dir: string, name: string, suffix: string)
    requires |dir| > 0 && dir[|dir| - 1] != '/' && '/' !in name && '/' !in suffix
    ensures PathJoin(dir, Stem(Basename(PathJoin(dir, name))) + suffix) == dir + "/" + Stem(name) + suffix
  {
    JoinUnder(dir, name);
    StemJoinUnder(dir, name, suffix);
  }

  /** Position of the last '.' of s; -1 when s has none. */
  function LastDot(s: string): (d: int)
    ensures -1 <= d < |s|
    ensures d >= 0 ==> s[d] == '.'
    ensures forall i :: d < i < |s| ==> s[i] != '.'
    decreases |s|
  {
    if |s| == 0 then -1
    else if s[|s| - 1] == '.' then |s| - 1
    else LastDot(s[..|s| - 1])
  }

  predicate AllDots(s: string) {
    forall i :: 0 <= i < |s| ==> s[i] == '.'
  }

  /** `os.path.splitext(name)[0]` for a name without '/': the last '.' starts the extension,
      unless every character before it is a '.' (".bashrc", "..x" have no extension). */
  function Stem(name: string): (r: string)
    ensures |r| <= |name| && name[..|r|] == r
    ensures |r| < |name| ==> name[|r|] == '.' && !AllDots(r)
    ensures |r| < |name| ==> forall i :: |r| < i < |name| ==> name[i] != '.'
    ensures '.' !in name ==> r == name
    ensures |r| == |name| ==> forall i :: 0 <= i < |name| && name[i] == '.' ==> AllDots(name[..i])
  {
    var d := LastDot(name);
    if d >= 0 && !AllDots(name[..d]) then name[..d] else name
  }

  /** A name made of a dot-free prefix, '_' and a rest keeps the prefix and the '_' in its
      stem: only the rest can lose an extension. */
  lemma StemOfPrefixed(prefix: string, rest: string) returns (m: nat)
    requires '.' !in prefix
    ensures m <= |rest| && Stem(prefix + "_" + rest) == prefix + "_" + rest[..m]
  {
    var name := prefix + "_" + rest;
    var r := Stem(name);
    forall k | 0 <= k <= |prefix|
      ensures name[k] != '.'
    {
      if k < |prefix| {
        assert name[k] == prefix[k];
        assert prefix[k] in prefix;
      }
    }
    m := |r| - |prefix| - 1;
    assert r == name[..|r|];
    assert name[..|r|] == prefix + "_" + rest[..m];
  }

  /** A prefix of a '/'-free text is '/'-free. */
  lemma NoSlashInPrefix(s: string, m: nat)
    requires '/' !in s && m <= |s|
    ensures '/' !in s[..m]
  {
    forall k | 0 <= k < m ensures s[..m][k] != '/' {
      assert s[k] in s;
    }
  }

  /** `os.path.join(a, b)`: an absolute `b` discards `a`; otherwise one '/' separates them. */
  function PathJoin(a: string, b: string): (r: string)
    ensures |b| > 0 && b[0] == '/' ==> r == b
    ensures (|b| == 0 || b[0] != '/') && |a| > 0 && a[|a| - 1] != '/' ==> r == a + "/" + b
    ensures (|b| == 0 || b[0] != '/') && (|a| == 0 || a[|a| - 1] == '/') ==> r == a + b
  {
    if |b| > 0 && b[0] == '/' then b
    else if |a| == 0 || a[|a| - 1] == '/' then a + b
    else a + "/" + b
  }
}

=== FILE: processor.dfy ===
/** The per-document pipeline: for every patient, download each of the patient's records
    that has a file reference, then run the document step on each downloaded image and
    save its analysis next to it. Failures are contained per record, per image and per
    patient; a patient row without its id keys stops the whole batch. */
module Processor {
  import opened Wrappers
  import opened Paths
  import MV = MedicineVerifier

  /** Local directory for downloaded documents and their analyses. */
  const DocsDir: string := "temp_medical_docs"

  /** Suffix of an analysis file name. */
  const AnalysisSuffix: string := "_analysis.txt"

  /** A row of the patients table: None stands for a missing key. */
  datatype PatientRow = PatientRow(id: Option<string>, userId: Option<string>)

  /** A row of the medical records table: `id` is None when the key is missing. */
  datatype RecordRow = RecordRow(id: Option<string>, fileUrl: Field<string>)

  /** The collaborators, as oracles of their arguments:
      `records(pid)`: the medical-records rows selected for patient pid (None: the query raised);
      `download(url, local)`: whether downloading `url` into `local` returned normally;
      `predict(path)`: loading the image at `path` and running the extraction on it (None: either raised);
      `agent`: the medicine-checking agent. */
  datatype Backend = Backend(
    records: string -> Option<seq<RecordRow>>,
    download: (string, string) -> bool,
    predict: string -> Option<MV.DocPrediction>,
    agent: MV.Agent)

  /** Externally visible effects, in the order they happen. `Checked` holds the steps of one
      document's medicine verification. */
  datatype Effect =
    | Download(url: string, localPath: string)
    | Checked(steps: seq<MV.Step>)
    | SaveAnalysis(path: string, text: string)

  /** Where a record's file is downloaded: `os.path.join(DocsDir, f"{pid}_{basename(url)}")`. */
  function LocalPath(patientId: string, url: string): (r: string)
    ensures '/' !in patientId ==> Basename(r) == patientId + "_" + Basename(url)
  {
    var name := patientId + "_" + Basename(url);
    if '/' in patientId then PathJoin(DocsDir, name)
    else
      NoSlashIn3(patientId, "_", Basename(url));
      NameConstants();
      JoinUnder(DocsDir, name);
      PathJoin(DocsDir, name)
  }

  /** Where an image's analysis is saved: the image's base name without its extension,
      with the analysis suffix, under DocsDir. */
  function AnalysisPath(imagePath: string): (r: string)
    ensures Basename(r) == Stem(Basename(imagePath)) + AnalysisSuffix
  {
    var base := Basename(imagePath);
    var name := Stem(base) + AnalysisSuffix;
    NoSlashInPrefix(base, |Stem(base)|);
    NameConstants();
    NoSlashIn3(Stem(base), "", AnalysisSuffix);
    JoinUnder(DocsDir, name);
    PathJoin(DocsDir, name)
  }

  /** The download path is the documents directory, the patient id, '_' and the base name of
      the file reference; as with `os.path.join`, a patient id starting with '/' discards
      the directory. */
  lemma LocalPathShape(patientId: string, url: string)
    ensures |patientId| > 0 && patientId[0] == '/' ==> LocalPath(patientId, url) == patientId + "_" + Basename(url)
    ensures (|patientId| == 0 || patientId[0] != '/') ==>
              LocalPath(patientId, url) == DocsDir + "/" + patientId + "_" + Basename(url)
  {
    var base := Basename(url);
    var b := patientId + "_" + base;
    assert DocsDir[|DocsDir| - 1] == 's';
    if |patientId| > 0 {
      assert b[0] == patientId[0];
    } else {
      assert b[0] == '_';
    }
    RegroupPath(DocsDir + "/", patientId, "_", base);
  }

  lemma RegroupPath(a: string, b: string, c: string, d: string)
    ensures a + (b + c + d) == a + b + c + d
  {
  }

  /** The analysis path is always under the documents directory: the stem of the image's
      base name followed by the analysis suffix. */
  lemma AnalysisPathShape(imagePath: string)
    ensures AnalysisPath(imagePath) == DocsDir + "/" + Stem(Basename(imagePath)) + AnalysisSuffix
  {
    NameConstants();
    StemJoinUnder(DocsDir, Basename(imagePath), AnalysisSuffix);
  }

  /** For a downloaded record of a patient whose id has no '/', the analysis is named after
      the patient id and the file reference's base name. */
  lemma AnalysisPathOfDownload(patientId: string, url: string)
    requires '/' !in patientId
    ensures AnalysisPath(LocalPath(patientId, url)) ==
              DocsDir + "/" + Stem(patientId + "_" + Basename(url)) + AnalysisSuffix
  {
    assert '/' !in Basename(url);
    assert '/' !in "_";
    NoSlashIn3(patientId, "_", Basename(url));
    NameConstants();
    StemOfPlacedName(DocsDir, patientId + "_" + Basename(url), AnalysisSuffix);
  }

  /** The directory does not end in '/' and the suffix holds none. */
  lemma NameConstants()
    ensures |DocsDir| > 0 && DocsDir[|DocsDir| - 1] != '/' && '/' !in AnalysisSuffix
  {
  }

  /** A record whose file reference is present, not null and not empty: it is downloaded. */
  predicate HasUrl(rec: RecordRow) {
    rec.fileUrl.Value? && rec.fileUrl.value != ""
  }

  /** A record on which the loop raises KeyError: no `file_url` key, or a falsy file
      reference on a row without an `id` key (the warning message reads it). */
  function RaisesKeyError(rec: RecordRow): (b: bool)
    ensures b ==> !HasUrl(rec)
    ensures !b && !HasUrl(rec) ==> rec.id.Some? && (rec.fileUrl.Null? || rec.fileUrl == Value(""))
  {
    rec.fileUrl.Missing? || (!HasUrl(rec) && rec.id.None?)
  }

  /** State of the download loop: the image paths gathered so far, the effects so far,
      and whether an exception escaped the loop. */
  datatype Fetched = Fetched(paths: seq<string>, effects: seq<Effect>, raised: bool)

  /** One iteration of the download loop. */
  function FetchStep(f: Fetched, patientId: string, rec: RecordRow,
                     download: (string, string) -> bool): Fetched
  {
    if RaisesKeyError(rec) then f.(raised := true)
    else if !HasUrl(rec) then f
    else
      var url := rec.fileUrl.value;
      var local := LocalPath(patientId, url);
      Fetched(f.paths + (if download(url, local) then [local] else []),
              f.effects + [Download(url, local)], f.raised)
  }

  /** The download loop over a patient's records; it stops at the first exception. */
  function FetchAll(patientId: string, recs: seq<RecordRow>, download: (string, string) -> bool): Fetched
    decreases |recs|
  {
    if |recs| == 0 then Fetched([], [], false)
    else
      var f := FetchAll(patientId, recs[..|recs| - 1], download);
      if f.raised then f else FetchStep(f, patientId, recs[|recs| - 1], download)
  }

  /** Once the loop has raised, later records change nothing. */
  lemma {:induction false} FetchRaisedStays(patientId: string, recs: seq<RecordRow>,
                                            download: (string, string) -> bool, k: nat)
    requires k <= |recs|
    requires FetchAll(patientId, recs[..k], download).raised
    ensures FetchAll(patientId, recs, download) == FetchAll(patientId, recs[..k], download)
    decreases |recs| - k
  {
    if k < |recs| {
      var init := recs[..|recs| - 1];
      assert init[..k] == recs[..k];
      FetchRaisedStays(patientId, init, download, k);
    } else {
      assert recs[..k] == recs;
    }
  }

  /** Reference definition, record by record from the front: the downloads attempted. */
  function Downloads(patientId: string, recs: seq<RecordRow>): seq<Effect> {
    if |recs| == 0 then []
    else (if HasUrl(recs[0]) then [Download(recs[0].fileUrl.value, LocalPath(patientId, recs[0].fileUrl.value))] else [])
         + Downloads(patientId, recs[1..])
  }

  /** Reference definition: the local paths of the records that have a file reference and
      whose download succeeded, in record order. */
  function KeptPaths(patientId: string, recs: seq<RecordRow>, download: (string, string) -> bool): seq<string> {
    if |recs| == 0 then []
    else (if HasUrl(recs[0]) && download(recs[0].fileUrl.value, LocalPath(patientId, recs[0].fileUrl.value))
          then [LocalPath(patientId, recs[0].fileUrl.value)] else [])
         + KeptPaths(patientId, recs[1..], download)
  }

  lemma {:induction false} DownloadsAppend(patientId: string, recs: seq<RecordRow>, rec: RecordRow)
    ensures Downloads(patientId, recs + [rec]) == Downloads(patientId, recs) + Downloads(patientId, [rec])
    decreases |recs|
  {
    if |recs| > 0 {
      assert (recs + [rec])[1..] == recs[1..] + [rec];
      DownloadsAppend(patientId, recs[1..], rec);
    } else {
      assert recs + [rec] == [rec];
    }
  }

  lemma {:induction false} KeptPathsAppend(patientId: string, recs: seq<RecordRow>, rec: RecordRow,
                                           download: (string, string) -> bool)
    ensures KeptPaths(patientId, recs + [rec], download) ==
            KeptPaths(patientId, recs, download) + KeptPaths(patientId, [rec], download)
    decreases |recs|
  {
    if |recs| > 0 {
      assert (recs + [rec])[1..] == recs[1..] + [rec];
      KeptPathsAppend(patientId, recs[1..], rec, download);
    } else {
      assert recs + [rec] == [rec];
    }
  }

  /** The download loop against the reference: it raises exactly when some record lacks a
      key it reads; otherwise it attempts a download for every record with a file reference
      and keeps, in record order, exactly the paths whose download succeeded. */
  lemma {:induction false} FetchAllMatchesReference(patientId: string, recs: seq<RecordRow>,
                                                    download: (string, string) -> bool)
    ensures FetchAll(patientId, recs, download).raised <==>
              exists i :: 0 <= i < |recs| && RaisesKeyError(recs[i])
    ensures !FetchAll(patientId, recs, download).raised ==>
              FetchAll(patientId, recs, download).paths == KeptPaths(patientId, recs, download) &&
              FetchAll(patientId, recs, download).effects == Downloads(patientId, recs)
    decreases |recs|
  {
    if |recs| > 0 {
      var init := recs[..|recs| - 1];
      var last := recs[|recs| - 1];
      var f := FetchAll(patientId, init, download);
      FetchAllMatchesReference(patientId, init, download);
      assert recs == init + [last];
      assert forall i :: 0 <= i < |init| ==> init[i] == recs[i];
      if f.raised {
        var i :| 0 <= i < |init| && RaisesKeyError(init[i]);
        assert RaisesKeyError(recs[i]);
      } else if RaisesKeyError(last) {
        assert RaisesKeyError(recs[|recs| - 1]);
      } else {
        assert forall i :: 0 <= i < |recs| ==> !RaisesKeyError(recs[i]);
        DownloadsAppend(patientId, init, last);
        KeptPathsAppend(patientId, init, last, download);
        assert [last][1..] == [];
      }
    }
  }

  /** When the loop raises, it raises at the first record that lacks a key it reads: the
      effects are the downloads of the records before that one, and the paths gathered are
      the ones those downloads kept. */
  lemma FetchStopsAtFirstKeyError(patientId: string, recs: seq<RecordRow>,
                                  download: (string, string) -> bool, i: nat)
    requires i < |recs| && RaisesKeyError(recs[i])
    requires forall j :: 0 <= j < i ==> !RaisesKeyError(recs[j])
    ensures FetchAll(patientId, recs, download).raised
    ensures FetchAll(patientId, recs, download).effects == Downloads(patientId, recs[..i])
    ensures FetchAll(patientId, recs, download).paths == KeptPaths(patientId, recs[..i], download)
  {
    var pre := recs[..i];
    FetchAllMatchesReference(patientId, pre, download);
    assert forall j :: 0 <= j < |pre| ==> pre[j] == recs[j];
    assert recs[..i + 1][..i] == pre;
    assert recs[..i + 1][i] == recs[i];
    FetchRaisedStays(patientId, recs, download, i + 1);
  }

  /** A record without a file reference is never downloaded: every download names the
      non-empty file reference of some record and that record's local path. */
  lemma {:induction false} DownloadsHaveUrls(patientId: string, recs: seq<RecordRow>)
    ensures forall e :: e in Downloads(patientId, recs) ==>
              e.Download? && e.url != "" && e.localPath == LocalPath(patientId, e.url) &&
              exists i :: 0 <= i < |recs| && recs[i].fileUrl == Value(e.url)
    decreases |recs|
  {
    if |recs| > 0 {
      DownloadsHaveUrls(patientId, recs[1..]);
      forall e | e in Downloads(patientId, recs)
        ensures e.Download? && e.url != "" && e.localPath == LocalPath(patientId, e.url) &&
                exists i :: 0 <= i < |recs| && recs[i].fileUrl == Value(e.url)
      {
        if e in Downloads(patientId, recs[1..]) {
          var j :| 0 <= j < |recs[1..]| && recs[1..][j].fileUrl == Value(e.url);
          assert recs[j + 1].fileUrl == Value(e.url);
        } else {
          assert recs[0].fileUrl == Value(e.url);
        }
      }
    }
  }

  /** One iteration of the image loop: an image whose loading or extraction raises adds
      nothing; otherwise its medicines are verified and its analysis is saved. */
  function AnalyseStep(effects: seq<Effect>, imagePath: string, b: Backend): seq<Effect> {
    match b.predict(imagePath)
    case None => effects
    case Some(pred) =>
      effects + [Checked(MV.PacedSteps(pred.extractedMedicines)),
                 SaveAnalysis(AnalysisPath(imagePath), pred.detailedAnalysis)]
  }

  /** The image loop over the downloaded paths. */
  function AnalyseAll(imagePaths: seq<string>, b: Backend): seq<Effect>
    decreases |imagePaths|
  {
    if |imagePaths| == 0 then []
    else AnalyseStep(AnalyseAll(imagePaths[..|imagePaths| - 1], b), imagePaths[|imagePaths| - 1], b)
  }

  /** The image loop processes each image on its own: its effects over two runs of paths
      are those of the first followed by those of the second. */
  lemma {:induction false} AnalyseAllAppend(ps: seq<string>, qs: seq<string>, b: Backend)
    ensures AnalyseAll(ps + qs, b) == AnalyseAll(ps, b) + AnalyseAll(qs, b)
    decreases |qs|
  {
    if |qs| == 0 {
      assert ps + qs == ps;
    } else {
      var init := qs[..|qs| - 1];
      AnalyseAllAppend(ps, init, b);
      assert (ps + qs)[..|ps + qs| - 1] == ps + init;
      assert (ps + qs)[|ps + qs| - 1] == qs[|qs| - 1];
    }
  }

  /** An image that fails contributes nothing, and the images after it are still processed. */
  lemma FailedImageIsSkipped(ps: seq<string>, path: string, qs: seq<string>, b: Backend)
    requires b.predict(path).None?
    ensures AnalyseAll(ps + [path] + qs, b) == AnalyseAll(ps, b) + AnalyseAll(qs, b)
  {
    AnalyseAllAppend(ps + [path], qs, b);
    AnalyseAllAppend(ps, [path], b);
    assert [path][..0] == [];
  }

  /** How a patient's turn ended: skipped for having no records, finished (whatever happened
      to single records and images), or failed by an exception caught for the patient. */
  datatype PatientOutcome = NoRecords | Finished | Failed

  datatype PatientRun = PatientRun(effects: seq<Effect>, outcome: PatientOutcome)

  /** One patient's turn inside its try block. */
  function RunPatient(patientId: string, b: Backend): PatientRun {
    match b.records(patientId)
    case None => PatientRun([], Failed)
    case Some(recs) =>
      if recs == [] then PatientRun([], NoRecords)
      else
        var f := FetchAll(patientId, recs, b.download);
        if f.raised then PatientRun(f.effects, Failed)
        else PatientRun(f.effects + AnalyseAll(f.paths, b), Finished)
  }

  /** A patient without records is skipped: no download, no document step, no effect. */
  lemma NoRecordsNoEffects(patientId: string, b: Backend)
    requires b.records(patientId) == Some([])
    ensures RunPatient(patientId, b) == PatientRun([], NoRecords)
  {
  }

  /** A record lacking a key it reads fails the patient: the downloads of the records before
      it stay done, and no image of the patient is analysed. */
  lemma KeyErrorFailsPatient(patientId: string, b: Backend, i: nat)
    requires b.records(patientId).Some?
    requires i < |b.records(patientId).value| && RaisesKeyError(b.records(patientId).value[i])
    requires forall j :: 0 <= j < i ==> !RaisesKeyError(b.records(patientId).value[j])
    ensures RunPatient(patientId, b) == PatientRun(Downloads(patientId, b.records(patientId).value[..i]), Failed)
  {
    FetchStopsAtFirstKeyError(patientId, b.records(patientId).value, b.download, i);
  }

  /** The whole run: effects, one outcome per patient reached, and whether an exception
      escaped the batch. */
  datatype Run = Run(effects: seq<Effect>, outcomes: seq<PatientOutcome>, raised: bool)

  /** The loop over patients. Reading the row's `id` and `user_id` happens before the
      patient's try block, so a row missing either key ends the batch. */
  function RunBatch(patients: seq<PatientRow>, b: Backend): Run
    decreases |patients|
  {
    if |patients| == 0 then Run([], [], false)
    else
      var r := RunBatch(patients[..|patients| - 1], b);
      var row := patients[|patients| - 1];
      if r.raised then r
      else if row.id.None? || row.userId.None? then r.(raised := true)
      else
        var pr := RunPatient(row.id.value, b);
        Run(r.effects + pr.effects, r.outcomes + [pr.outcome], false)
  }

  /** Once the batch has raised, later patients change nothing. */
  lemma {:induction false} BatchRaisedStays(ps: seq<PatientRow>, qs: seq<PatientRow>, b: Backend)
    requires RunBatch(ps, b).raised
    ensures RunBatch(ps + qs, b) == RunBatch(ps, b)
    decreases |qs|
  {
    if |qs| == 0 {
      assert ps + qs == ps;
    } else {
      var init := qs[..|qs| - 1];
      BatchRaisedStays(ps, init, b);
      assert (ps + qs)[..|ps + qs| - 1] == ps + init;
    }
  }

  /** Patients are processed independently: after a prefix that does not raise, the rest of
      the batch runs exactly as it would on its own. */
  lemma {:induction false} BatchAppend(ps: seq<PatientRow>, qs: seq<PatientRow>, b: Backend)
    requires !RunBatch(ps, b).raised
    ensures RunBatch(ps + qs, b) ==
              Run(RunBatch(ps, b).effects + RunBatch(qs, b).effects,
                  RunBatch(ps, b).outcomes + RunBatch(qs, b).outcomes,
                  RunBatch(qs, b).raised)
    decreases |qs|
  {
    if |qs| == 0 {
      assert ps + qs == ps;
    } else {
      var init := qs[..|qs| - 1];
      BatchAppend(ps, init, b);
      assert (ps + qs)[..|ps + qs| - 1] == ps + init;
      assert (ps + qs)[|ps + qs| - 1] == qs[|qs| - 1];
      var r := RunBatch(init, b);
      if !r.raised {
        var row := qs[|qs| - 1];
        if !(row.id.None? || row.userId.None?) {
          var pr := RunPatient(row.id.value, b);
          assert RunBatch(ps, b).effects + r.effects + pr.effects == RunBatch(ps, b).effects + (r.effects + pr.effects);
          assert RunBatch(ps, b).outcomes + r.outcomes + [pr.outcome] == RunBatch(ps, b).outcomes + (r.outcomes + [pr.outcome]);
        }
      }
    }
  }

  /** A patient whose turn fails (or is skipped) does not stop the patients after it. */
  lemma FailureIsolatedPerPatient(ps: seq<PatientRow>, row: PatientRow, qs: seq<PatientRow>, b: Backend)
    requires !RunBatch(ps, b).raised && row.id.Some? && row.userId.Some?
    ensures RunBatch(ps + [row] + qs, b) ==
              Run(RunBatch(ps, b).effects + RunPatient(row.id.value, b).effects + RunBatch(qs, b).effects,
                  RunBatch(ps, b).outcomes + [RunPatient(row.id.value, b).outcome] + RunBatch(qs, b).outcomes,
                  RunBatch(qs, b).raised)
  {
    assert [row][..0] == [];
    BatchAppend(ps, [row], b);
    BatchAppend(ps + [row], qs, b);
  }

  /** A patient row missing `id` or `user_id` ends the batch: nobody after it is processed. */
  lemma MissingPatientKeyStopsBatch(ps: seq<PatientRow>, row: PatientRow, qs: seq<PatientRow>, b: Backend)
    requires !RunBatch(ps, b).raised && (row.id.None? || row.userId.None?)
    ensures RunBatch(ps + [row] + qs, b) == RunBatch(ps, b).(raised := true)
  {
    assert (ps + [row])[..|ps|] == ps;
    BatchRaisedStays(ps + [row], qs, b);
  }

  /** The download loop of one patient. */
  method DownloadRecords(patientId: string, records: seq<RecordRow>, download: (string, string) -> bool)
    returns (f: Fetched)
    ensures f == FetchAll(patientId, records, download)
  {
    f := Fetched([], [], false);
    var i := 0;
    while i < |records|
      invariant 0 <= i <= |records|
      invariant f == FetchAll(patientId, records[..i], download)
      invariant !f.raised
    {
      var rec := records[i];
      assert records[..i + 1][..i] == records[..i];
      if rec.fileUrl.Missing? {
        f := f.(raised := true);
        FetchRaisedStays(patientId, records, download, i + 1);
        return;
      }
      if !HasUrl(rec) {
        if rec.id.None? {
          f := f.(raised := true);
          FetchRaisedStays(patientId, records, download, i + 1);
          return;
        }
      } else {
        var url := rec.fileUrl.value;
        var localPath := LocalPath(patientId, url);
        var ok := download(url, localPath);
        f := f.(effects := f.effects + [Download(url, localPath)]);
        if ok {
          f := f.(paths := f.paths + [localPath]);
        }
      }
      i := i + 1;
    }
    assert records[..i] == records;
  }

  /** The image loop of one patient: each image goes through the document step and its
      analysis text is saved. */
  method AnalyseImages(imagePaths: seq<string>, b: Backend) returns (effects: seq<Effect>)
    ensures effects == AnalyseAll(imagePaths, b)
  {
    effects := [];
    var i := 0;
    while i < |imagePaths|
      invariant 0 <= i <= |imagePaths|
      invariant effects == AnalyseAll(imagePaths[..i], b)
    {
      var imagePath := imagePaths[i];
      assert imagePaths[..i + 1][..i] == imagePaths[..i];
      match b.predict(imagePath) {
        case None =>
        case Some(prediction) =>
          var result, steps := MV.ProcessDocument(prediction, b.agent);
          effects := effects + [Checked(steps), SaveAnalysis(AnalysisPath(imagePath), result.detailedAnalysis)];
      }
      i := i + 1;
    }
    assert imagePaths[..i] == imagePaths;
  }

  /** One patient's turn. */
  method ProcessPatient(patientId: string, b: Backend) returns (pr: PatientRun)
    ensures pr == RunPatient(patientId, b)
  {
    var query := b.records(patientId);
    if query.None? {
      return PatientRun([], Failed);
    }
    var records := query.value;
    if records == [] {
      return PatientRun([], NoRecords);
    }
    var fetched := DownloadRecords(patientId, records, b.download);
    if fetched.raised {
      return PatientRun(fetched.effects, Failed);
    }
    var analysed := AnalyseImages(fetched.paths, b);
    pr := PatientRun(fetched.effects + analysed, Finished);
  }

  /** `process_patients_and_generate_per_doc_analysis`: every patient in turn. With no
      patients it does nothing and completes. */
  method ProcessPatientsAndGeneratePerDocAnalysis(patients: seq<PatientRow>, b: Backend) returns (run: Run)
    ensures run == RunBatch(patients, b)
    ensures patients == [] ==> run == Run([], [], false)
  {
    run := Run([], [], false);
    var i := 0;
    while i < |patients|
      invariant 0 <= i <= |patients|
      invariant run == RunBatch(patients[..i], b)
      invariant !run.raised
    {
      var row := patients[i];
      assert patients[..i + 1][..i] == patients[..i];
      if row.id.None? || row.userId.None? {
        run := run.(raised := true);
        BatchRaisedStays(patients[..i + 1], patients[i + 1..], b);
        assert patients[..i + 1] + patients[i + 1..] == patients;
        return;
      }
      var pr := ProcessPatient(row.id.value, b);
      run := Run(run.effects + pr.effects, run.outcomes + [pr.outcome], false);
      i := i + 1;
    }
    assert patients[..i] == patients;
  }
}

=== FILE: report.dfy ===
/** The patient analysis report: an illness event's dictionary form, and the Markdown
    summary rendered from the demographics and the list of illness events. */
module Report {
  import opened Wrappers
  import opened Text

  /** One illness event as extracted from the patient's history. */
  datatype IllnessDetails = IllnessDetails(
    period: string,
    department: seq<string>,
    complaint: seq<string>,
    diagnosis: seq<string>,
    treatment: seq<string>,
    medications: seq<string>,
    tests: seq<string>,
    procedures: seq<string>,
    systemNotes: seq<string>)

  /** A value of the dictionary form: a text or a list of texts. */
  datatype FieldValue = Text(text: string) | Items(items: seq<string>)

  /** A dictionary in insertion order (the order `json.dump` writes it in). */
  type Dict = seq<(string, FieldValue)>

  /** The nine keys of the dictionary form, in order. */
  const IllnessKeys: seq<string> :=
    ["period", "department", "complaint", "diagnosis", "treatment",
     "medications", "tests", "procedures", "system_notes"]

  /** The keys of a dictionary, in order. */
  function Keys(d: Dict): (ks: seq<string>)
    ensures |ks| == |d|
    ensures forall i :: 0 <= i < |d| ==> ks[i] == d[i].0
  {
    if |d| == 0 then [] else Keys(d[..|d| - 1]) + [d[|d| - 1].0]
  }

  /** Looking a key up: the value of its first entry, None when it is absent. */
  function Lookup(d: Dict, key: string): (v: Option<FieldValue>)
    ensures v.None? <==> forall i :: 0 <= i < |d| ==> d[i].0 != key
  {
    if |d| == 0 then None
    else if d[0].0 == key then Some(d[0].1)
    else Lookup(d[1..], key)
  }

  /** The first entry with the key decides the lookup. */
  lemma {:induction false} LookupFirst(d: Dict, i: nat, key: string)
    requires i < |d| && d[i].0 == key
    requires forall j :: 0 <= j < i ==> d[j].0 != key
    ensures Lookup(d, key) == Some(d[i].1)
    decreases i
  {
    if i > 0 {
      LookupFirst(d[1..], i - 1, key);
    }
  }

  /** `serialize_illness_details`: the event as a dictionary with the nine keys. */
  function SerializeIllnessDetails(ill: IllnessDetails): (d: Dict)
    ensures |d| == |IllnessKeys|
    ensures d[0].1 == Text(ill.period)
    ensures forall i :: 1 <= i < |d| ==> d[i].1.Items?
  {
    [("period", Text(ill.period)),
     ("department", Items(ill.department)),
     ("complaint", Items(ill.complaint)),
     ("diagnosis", Items(ill.diagnosis)),
     ("treatment", Items(ill.treatment)),
     ("medications", Items(ill.medications)),
     ("tests", Items(ill.tests)),
     ("procedures", Items(ill.procedures)),
     ("system_notes", Items(ill.systemNotes))]
  }

  /** The text stored under a key, if the key is present and holds a text. */
  function TextAt(d: Dict, key: string): Option<string> {
    match Lookup(d, key)
    case Some(Text(t)) => Some(t)
    case _ => None
  }

  /** The list stored under a key, if the key is present and holds a list. */
  function ItemsAt(d: Dict, key: string): Option<seq<string>> {
    match Lookup(d, key)
    case Some(Items(xs)) => Some(xs)
    case _ => None
  }

  /** Reading an event back from its dictionary form; None when a key is absent or holds
      the wrong kind of value. */
  function DeserializeIllnessDetails(d: Dict): Option<IllnessDetails> {
    var p := TextAt(d, "period");
    var dep := ItemsAt(d, "department");
    var c := ItemsAt(d, "complaint");
    var dg := ItemsAt(d, "diagnosis");
    var tr := ItemsAt(d, "treatment");
    var m := ItemsAt(d, "medications");
    var t := ItemsAt(d, "tests");
    var pr := ItemsAt(d, "procedures");
    var n := ItemsAt(d, "system_notes");
    if p.Some? && dep.Some? && c.Some? && dg.Some? && tr.Some? && m.Some? && t.Some? && pr.Some? && n.Some? then
      Some(IllnessDetails(p.value, dep.value, c.value, dg.value, tr.value, m.value, t.value, pr.value, n.value))
    else None
  }

  /** The dictionary form has exactly the nine keys, in order. */
  lemma SerializedKeys(ill: IllnessDetails)
    ensures Keys(SerializeIllnessDetails(ill)) == IllnessKeys
  {
    var d := SerializeIllnessDetails(ill);
    var ks := Keys(d);
    assert |ks| == 9;
    forall i | 0 <= i < 9 ensures ks[i] == IllnessKeys[i] {
      assert ks[i] == d[i].0;
    }
  }

  /** Every field is copied unchanged: reading the dictionary back gives the event. */
  lemma SerializeRoundTrip(ill: IllnessDetails)
    ensures DeserializeIllnessDetails(SerializeIllnessDetails(ill)) == Some(ill)
  {
    var d := SerializeIllnessDetails(ill);
    SerializedKeys(ill);
    forall i | 0 <= i < 9
      ensures Lookup(d, IllnessKeys[i]) == Some(d[i].1)
    {
      forall j | 0 <= j < i ensures d[j].0 != IllnessKeys[i] {
        KeysDistinct(j, i);
      }
      LookupFirst(d, i, IllnessKeys[i]);
    }
    assert TextAt(d, IllnessKeys[0]) == Some(ill.period);
    assert ItemsAt(d, IllnessKeys[1]) == Some(ill.department);
    assert ItemsAt(d, IllnessKeys[2]) == Some(ill.complaint);
    assert ItemsAt(d, IllnessKeys[3]) == Some(ill.diagnosis);
    assert ItemsAt(d, IllnessKeys[4]) == Some(ill.treatment);
    assert ItemsAt(d, IllnessKeys[5]) == Some(ill.medications);
    assert ItemsAt(d, IllnessKeys[6]) == Some(ill.tests);
    assert ItemsAt(d, IllnessKeys[7]) == Some(ill.procedures);
    assert ItemsAt(d, IllnessKeys[8]) == Some(ill.systemNotes);
  }

  /** The nine keys are pairwise different. */
  lemma KeysDistinct(i: nat, j: nat)
    requires i < j < 9
    ensures IllnessKeys[i] != IllnessKeys[j]
  {
  }

  /** Two events with the same dictionary form are the same event. */
  lemma SerializeInjective(a: IllnessDetails, b: IllnessDetails)
    requires SerializeIllnessDetails(a) == SerializeIllnessDetails(b)
    ensures a == b
  {
    SerializeRoundTrip(a);
    SerializeRoundTrip(b);
  }

  /** Placeholder for an empty list of findings. */
  const NoneRecorded: string := "None recorded"

  /** Placeholder for an empty list of medications. */
  const NonePrescribed: string := "None prescribed"

  /** A list as shown in the report: ", "-joined, or the placeholder when it is empty. */
  function Listed(items: seq<string>, placeholder: string): (r: string)
    ensures items == [] ==> r == placeholder
    ensures items != [] ==> r == Join(items, ", ")
  {
    if items == [] then placeholder else Join(items, ", ")
  }

  /** First line of the report. */
  const ReportTitle: string := "# Patient Analysis Report\n"

  /** Heading under which the illness events follow. */
  const HistoryHeading: string := "## Illness History\n"

  /** Heading of the demographics, on its own line after the title. */
  const DemographicsHeading: string := "\n## Patient Demographics\n"

  /** Labels of the three demographic lines; each but the first opens a new line. */
  const NameLabel: string := "- **Name:** "
  const AgeLabel: string := "\n- **Age:** "
  const GenderLabel: string := "\n- **Gender:** "

  /** What separates the demographics from the illness history heading. */
  const DemographicsEnd: string := "\n\n"

  /** The report's opening: title, demographics and the illness history heading. It starts
      with the title and ends with the history heading, so the events come right under it.
      The patient's name, age in decimal and gender follow their labels, in that order. */
  function ReportHeader(name: string, age: int, gender: string): (r: string)
    ensures |ReportTitle| + |HistoryHeading| <= |r|
    ensures r[..|ReportTitle|] == ReportTitle
    ensures r[|r| - |HistoryHeading|..] == HistoryHeading
    ensures var t := |ReportTitle| + |DemographicsHeading| + |NameLabel|;
            var a := t + |name| + |AgeLabel|;
            var g := a + |IntToString(age)| + |GenderLabel|;
            g + |gender| + |DemographicsEnd| + |HistoryHeading| == |r| &&
            r[..t] == ReportTitle + DemographicsHeading + NameLabel &&
            r[t..t + |name|] == name &&
            r[t + |name|..a] == AgeLabel &&
            r[a..a + |IntToString(age)|] == IntToString(age) &&
            r[a + |IntToString(age)|..g] == GenderLabel &&
            r[g..g + |gender|] == gender &&
            r[g + |gender|..] == DemographicsEnd + HistoryHeading
  {
    var opening := ReportTitle + DemographicsHeading + NameLabel;
    var closing := DemographicsEnd + HistoryHeading;
    var r := opening + name + AgeLabel + IntToString(age) + GenderLabel + gender + closing;
    FieldsInPlace(opening, name, AgeLabel, IntToString(age), GenderLabel, gender, closing);
    PartsOf3(ReportTitle, DemographicsHeading, NameLabel);
    Tail(DemographicsEnd, HistoryHeading);
    r
  }

  /** Where each part of a text made of seven parts lies. */
  lemma FieldsInPlace(o: string, x: string, a: string, y: string, b: string, z: string, c: string)
    ensures var r := o + x + a + y + b + z + c;
            var t := |o|;
            var u := t + |x| + |a|;
            var v := u + |y| + |b|;
            v + |z| + |c| == |r| &&
            r[..t] == o && r[t..t + |x|] == x && r[t + |x|..u] == a &&
            r[u..u + |y|] == y && r[u + |y|..v] == b && r[v..v + |z|] == z &&
            r[v + |z|..] == c
  {
  }

  /** Opening of an event's heading, before its number. */
  const EventPrefix: string := "\n### Illness Event "

  /** One bullet line of an event: the title in bold, then the value. */
  function BulletLine(title: string, value: string): (r: string)
    ensures |r| > 0 && r[|r| - 1] == '\n'
  {
    "- **" + title + ":** " + value + "\n"
  }

  /** The titles of an event's eight bullet lines, in order. */
  const LineTitles: seq<string> :=
    ["Department", "Complaints", "Diagnosis", "Treatment",
     "Medications", "Tests", "Procedures", "System Notes"]

  /** The lists an event's bullet lines show, in the order of their titles. */
  function LineLists(ill: IllnessDetails): (ls: seq<seq<string>>)
    ensures |ls| == |LineTitles|
  {
    [ill.department, ill.complaint, ill.diagnosis, ill.treatment,
     ill.medications, ill.tests, ill.procedures, ill.systemNotes]
  }

  /** The placeholder of line k when its list is empty: the medications line has its own. */
  function Placeholder(k: nat): string {
    if k == 4 then NonePrescribed else NoneRecorded
  }

  /** Line k of an event: its title, then its list ", "-joined when it is not empty. An
      empty list shows its placeholder ("None prescribed" for the medications, "None
      recorded" for the others), except the department (k = 0), which shows nothing. */
  function EventLine(ill: IllnessDetails, k: nat): (r: string)
    requires k < |LineTitles|
    ensures |r| > 0 && r[|r| - 1] == '\n'
    ensures LineLists(ill)[k] != [] ==> r == BulletLine(LineTitles[k], Join(LineLists(ill)[k], ", "))
    ensures LineLists(ill)[k] == [] && k == 0 ==> r == BulletLine(LineTitles[k], "")
    ensures LineLists(ill)[k] == [] && k != 0 ==> r == BulletLine(LineTitles[k], Placeholder(k))
  {
    var value := if k == 0 then Join(ill.department, ", ") else Listed(LineLists(ill)[k], Placeholder(k));
    BulletLine(LineTitles[k], value)
  }

  /** The eight lines of an event, in order. */
  function EventLineList(ill: IllnessDetails): (ls: seq<string>)
    ensures |ls| == |LineTitles|
    ensures forall k :: 0 <= k < |ls| ==> ls[k] == EventLine(ill, k)
  {
    seq(|LineTitles|, k requires 0 <= k < |LineTitles| => EventLine(ill, k))
  }

  /** Lines written one after the other. */
  function Lines(ls: seq<string>): string {
    if |ls| == 0 then "" else Lines(ls[..|ls| - 1]) + ls[|ls| - 1]
  }

  /** The bullet lines of one event. */
  function EventLines(ill: IllnessDetails): (r: string)
    ensures |r| > 0 && r[|r| - 1] == '\n'
  {
    Lines(EventLineList(ill))
  }

  /** The lines up to j are a prefix of all the lines. */
  lemma {:induction false} LinesPrefix(ls: seq<string>, j: nat)
    requires j <= |ls|
    ensures |Lines(ls[..j])| <= |Lines(ls)| && Lines(ls)[..|Lines(ls[..j])|] == Lines(ls[..j])
    decreases |ls|
  {
    if j < |ls| {
      var init := ls[..|ls| - 1];
      LinesPrefix(init, j);
      assert init[..j] == ls[..j];
      assert Lines(ls)[..|Lines(init)|] == Lines(init);
    } else {
      assert ls[..j] == ls;
    }
  }

  /** Line k sits, unchanged, right after the lines before it. */
  lemma LineInPlace(ls: seq<string>, k: nat)
    requires k < |ls|
    ensures |Lines(ls[..k])| + |ls[k]| <= |Lines(ls)|
    ensures Lines(ls)[|Lines(ls[..k])|..|Lines(ls[..k])| + |ls[k]|] == ls[k]
  {
    LinesPrefix(ls, k + 1);
    var p := ls[..k + 1];
    assert p[..k] == ls[..k];
    assert Lines(p) == Lines(ls[..k]) + ls[k];
  }

  /** The event's text holds line k right after the lines before it. */
  lemma EventLinesInOrder(ill: IllnessDetails, k: nat)
    requires k < |LineTitles|
    ensures var start := |Lines(EventLineList(ill)[..k])|;
            start + |EventLine(ill, k)| <= |EventLines(ill)| &&
            EventLines(ill)[start..start + |EventLine(ill, k)|] == EventLine(ill, k)
  {
    var ls := EventLineList(ill);
    assert ls[k] == EventLine(ill, k);
    LineInPlace(ls, k);
  }

  /** The exact lines an empty department list and an empty medications list produce. */
  lemma PlaceholderLines()
    ensures BulletLine(LineTitles[0], "") == EmptyDepartmentLine
    ensures BulletLine(LineTitles[4], Placeholder(4)) == NoMedicationsLine
  {
  }

  /** The department line of an event whose department list is empty: it has no placeholder. */
  const EmptyDepartmentLine: string := "- **Department:** \n"

  /** The medications line of an event without medications. */
  const NoMedicationsLine: string := "- **Medications:** None prescribed\n"

  /** An empty department list: the event's text opens with the bare department line. */
  lemma EmptyDepartmentShown(ill: IllnessDetails)
    requires ill.department == []
    ensures |EmptyDepartmentLine| <= |EventLines(ill)|
    ensures EventLines(ill)[..|EmptyDepartmentLine|] == EmptyDepartmentLine
  {
    var ls := EventLineList(ill);
    PlaceholderLines();
    assert LineLists(ill)[0] == ill.department;
    assert EventLine(ill, 0) == EmptyDepartmentLine;
    EventLinesInOrder(ill, 0);
    assert ls[..0] == [];
    assert |Lines(ls[..0])| == 0;
  }

  /** No medications: the fifth line, right after the first four, is the placeholder line. */
  lemma NoMedicationsShown(ill: IllnessDetails)
    requires ill.medications == []
    ensures var k := |Lines(EventLineList(ill)[..4])|;
            k + |NoMedicationsLine| <= |EventLines(ill)| &&
            EventLines(ill)[k..k + |NoMedicationsLine|] == NoMedicationsLine
  {
    PlaceholderLines();
    assert LineLists(ill)[4] == ill.medications;
    assert EventLine(ill, 4) == NoMedicationsLine;
    EventLinesInOrder(ill, 4);
  }

  /** The block appended for the event numbered i: it opens on a new line with the event's
      number, then the event's period in parentheses ends the heading line, and the event's
      lines close the block. */
  function EventBlock(i: int, ill: IllnessDetails): (r: string)
    ensures |EventPrefix| + |IntToString(i)| <= |r|
    ensures r[..|EventPrefix| + |IntToString(i)|] == EventPrefix + IntToString(i)
    ensures r[|r| - 1] == '\n'
    ensures |EventPrefix| + |IntToString(i)| + |ill.period| + 4 + |EventLines(ill)| == |r|
    ensures r[|EventPrefix| + |IntToString(i)|..|r| - |EventLines(ill)|] == " (" + ill.period + ")\n"
    ensures r[|r| - |EventLines(ill)|..] == EventLines(ill)
  {
    var numbered := EventPrefix + IntToString(i);
    var closing := " (" + ill.period + ")\n";
    PartsOf3(numbered, closing, EventLines(ill));
    numbered + closing + EventLines(ill)
  }

  /** The blocks of the items as the loop appends them: the last item is numbered by its
      position counted from 1. */
  function Appended<T>(items: seq<T>, block: (int, T) -> string): string {
    if |items| == 0 then ""
    else Appended(items[..|items| - 1], block) + block(|items|, items[|items| - 1])
  }

  /** Reference definition: the items numbered consecutively from `first`, front to back. */
  function NumberedFrom<T>(first: int, items: seq<T>, block: (int, T) -> string): string
    decreases |items|
  {
    if |items| == 0 then "" else block(first, items[0]) + NumberedFrom(first + 1, items[1..], block)
  }

  /** Numbering from `first` over a list extended by one item gives that item the next number. */
  lemma {:induction false} NumberedFromAppend<T>(first: int, items: seq<T>, x: T, block: (int, T) -> string)
    ensures NumberedFrom(first, items + [x], block) == NumberedFrom(first, items, block) + block(first + |items|, x)
    decreases |items|
  {
    if |items| == 0 {
      assert [x][1..] == [];
    } else {
      assert (items + [x])[1..] == items[1..] + [x];
      NumberedFromAppend(first + 1, items[1..], x, block);
    }
  }

  /** The items are appended in list order, numbered 1, 2, 3, ...: items[k] gets the block
      numbered k + 1. */
  lemma {:induction false} AppendedNumbersFromOne<T>(items: seq<T>, block: (int, T) -> string)
    ensures Appended(items, block) == NumberedFrom(1, items, block)
    decreases |items|
  {
    if |items| > 0 {
      var init := items[..|items| - 1];
      AppendedNumbersFromOne(init, block);
      NumberedFromAppend(1, init, items[|items| - 1], block);
      assert init + [items[|items| - 1]] == items;
    }
  }

  /** Appending a list split in two: the second part continues the numbering. */
  lemma {:induction false} AppendedSplit<T>(ps: seq<T>, qs: seq<T>, block: (int, T) -> string)
    ensures Appended(ps + qs, block) == Appended(ps, block) + NumberedFrom(|ps| + 1, qs, block)
    decreases |qs|
  {
    if |qs| == 0 {
      assert ps + qs == ps;
    } else {
      var init := qs[..|qs| - 1];
      var last := qs[|qs| - 1];
      assert (ps + qs)[..|ps + qs| - 1] == ps + init;
      AppendedSplit(ps, init, block);
      NumberedFromAppend(|ps| + 1, init, last, block);
      assert init + [last] == qs;
    }
  }

  /** One more pass of the rendering loop appends the next numbered block. */
  lemma AppendedStep<T>(items: seq<T>, i: nat, block: (int, T) -> string)
    requires i < |items|
    ensures Appended(items[..i + 1], block) == Appended(items[..i], block) + block(i + 1, items[i])
  {
    assert items[..i + 1][..i] == items[..i];
  }

  /** The `+=` loop over `enumerate(items, 1)`: starting from `start`, append the block of
      each item, numbered from 1, in list order. */
  method AppendNumbered<T>(start: string, items: seq<T>, block: (int, T) -> string)
    returns (text: string)
    ensures text == start + NumberedFrom(1, items, block)
  {
    text := start;
    var i := 0;
    while i < |items|
      invariant 0 <= i <= |items|
      invariant text == start + Appended(items[..i], block)
    {
      AppendedStep(items, i, block);
      text := text + block(i + 1, items[i]);
      i := i + 1;
    }
    assert items[..i] == items;
    AppendedNumbersFromOne(items, block);
  }

  /** The report as the script builds it: the header, then one block per illness event,
      in list order and numbered from 1. */
  method RenderMarkdown(name: string, age: int, gender: string, ills: seq<IllnessDetails>)
    returns (markdown: string)
    ensures markdown == ReportHeader(name, age, gender) + NumberedFrom(1, ills, EventBlock)
  {
    markdown := AppendNumbered(ReportHeader(name, age, gender), ills, EventBlock);
  }
}

=== FILE: summary.dfy ===
/** Summary defaulting: the patient-level prediction may leave any field out, and the
    synthesizer fills every missing top-level field with a fixed default. A nested block
    the prediction does carry is passed on as it came, with only the keys it has. */
module Summary {
  import opened Wrappers

  /** An entry of one of the list-valued fields, kept as opaque text. */
  type Item = string

  /** The nested blocks are dictionaries with known keys: None stands for a key the
      block does not have. */
  datatype PatientBlock = PatientBlock(id: Option<string>, name: Option<string>, dob: Option<string>,
                                       age: Option<string>, bloodGroup: Option<string>)
  datatype PrimaryAlert = PrimaryAlert(alert: Option<string>, specialCare: Option<string>)
  datatype Footer = Footer(date: Option<string>, generatedBy: Option<string>,
                           notMedicalDocument: Option<string>, disclaimer: Option<string>)
  datatype Meta = Meta(version: Option<string>, generatedAt: Option<string>,
                       patientId: Option<string>, userId: Option<string>)

  /** What the summarization capability returned: every attribute may be absent. */
  datatype SummaryPrediction = SummaryPrediction(
    patient: Option<PatientBlock>,
    patientName: Option<string>,
    dob: Option<string>,
    age: Option<string>,
    bloodGroup: Option<string>,
    summary: Option<string>,
    primaryAlert: Option<PrimaryAlert>,
    alert: Option<string>,
    specialCare: Option<string>,
    chronicConditions: Option<seq<Item>>,
    historyTimeline: Option<seq<Item>>,
    labTests: Option<seq<Item>>,
    medications: Option<seq<Item>>,
    doctors: Option<seq<Item>>,
    emergencyContacts: Option<seq<Item>>,
    footer: Option<Footer>,
    meta: Option<Meta>)

  /** The summary handed on: every top-level field present. */
  datatype PatientSummary = PatientSummary(
    patient: PatientBlock,
    summary: string,
    primaryAlert: PrimaryAlert,
    chronicConditions: seq<Item>,
    historyTimeline: seq<Item>,
    labTests: seq<Item>,
    medications: seq<Item>,
    doctors: seq<Item>,
    emergencyContacts: seq<Item>,
    footer: Footer,
    meta: Meta)

  const GeneratedBy: string := "Ayurlekha App"
  const NotMedicalDocument: string := "Not a Medical Document"
  const Disclaimer: string := "This document is a summary for informational purposes only and does not replace professional medical advice, diagnosis, or treatment. Always consult with a qualified healthcare provider for any medical concerns."
  const SummaryVersion: string := "1.0"
  const UnknownName: string := "Unknown"

  /** Python's `getattr(obj, name, default)` on an optional attribute. */
  function GetOr<T>(o: Option<T>, default: T): (r: T)
    ensures o.Some? ==> r == o.value
    ensures o.None? ==> r == default
  {
    match o
    case Some(v) => v
    case None => default
  }

  /** The footer used when the prediction has none; `today` is the UTC date as YYYY-MM-DD. */
  function DefaultFooter(today: string): (f: Footer)
    ensures f.date == Some(today) && f.generatedBy == Some(GeneratedBy)
    ensures f.notMedicalDocument == Some(NotMedicalDocument) && f.disclaimer == Some(Disclaimer)
  {
    Footer(Some(today), Some(GeneratedBy), Some(NotMedicalDocument), Some(Disclaimer))
  }

  /** The patient block assembled when the prediction has none: every key set, from the
      loose attributes and the patient id. */
  function DefaultPatient(p: SummaryPrediction, patientId: Option<string>): (b: PatientBlock)
    ensures b.id.Some? && b.name.Some? && b.dob.Some? && b.age.Some? && b.bloodGroup.Some?
    ensures b.id.value == OrEmpty(patientId)
    ensures b.name.value == (if p.patientName.Some? then p.patientName.value else UnknownName)
    ensures b.dob.value == (if p.dob.Some? then p.dob.value else "")
    ensures b.age.value == (if p.age.Some? then p.age.value else "")
    ensures b.bloodGroup.value == (if p.bloodGroup.Some? then p.bloodGroup.value else "")
  {
    PatientBlock(Some(OrEmpty(patientId)), Some(GetOr(p.patientName, UnknownName)),
                 Some(GetOr(p.dob, "")), Some(GetOr(p.age, "")), Some(GetOr(p.bloodGroup, "")))
  }

  /** `PatientDemographics.forward` after the prediction: a present block is passed on
      unchanged, keys it lacks included; a missing one is assembled from the loose
      attributes and the ids, with every key set: "Unknown" for a missing name and "" for
      anything else. Missing lists become [] and a missing summary "". `today` and
      `generatedAt` stand for the clock. */
  function Synthesize(p: SummaryPrediction, patientId: Option<string>, userId: Option<string>,
                      today: string, generatedAt: string): (s: PatientSummary)
    ensures p.patient.Some? ==> s.patient == p.patient.value
    ensures p.patient.None? ==>
              s.patient == DefaultPatient(p, patientId)
    ensures p.primaryAlert.Some? ==> s.primaryAlert == p.primaryAlert.value
    ensures p.primaryAlert.None? ==>
              s.primaryAlert == PrimaryAlert(Some(GetOr(p.alert, "")), Some(GetOr(p.specialCare, "")))
    ensures p.footer.Some? ==> s.footer == p.footer.value
    ensures p.footer.None? ==> s.footer == DefaultFooter(today)
    ensures p.meta.Some? ==> s.meta == p.meta.value
    ensures p.meta.None? ==>
              s.meta == Meta(Some(SummaryVersion), Some(generatedAt), Some(OrEmpty(patientId)), Some(OrEmpty(userId)))
    ensures s.summary == (if p.summary.Some? then p.summary.value else "")
    ensures s.chronicConditions == (if p.chronicConditions.Some? then p.chronicConditions.value else [])
    ensures s.historyTimeline == (if p.historyTimeline.Some? then p.historyTimeline.value else [])
    ensures s.labTests == (if p.labTests.Some? then p.labTests.value else [])
    ensures s.medications == (if p.medications.Some? then p.medications.value else [])
    ensures s.doctors == (if p.doctors.Some? then p.doctors.value else [])
    ensures s.emergencyContacts == (if p.emergencyContacts.Some? then p.emergencyContacts.value else [])
  {
    var patient :=
      if p.patient.Some? then p.patient.value
      else DefaultPatient(p, patientId);
    var primaryAlert :=
      if p.primaryAlert.Some? then p.primaryAlert.value
      else PrimaryAlert(Some(GetOr(p.alert, "")), Some(GetOr(p.specialCare, "")));
    var footer := if p.footer.Some? then p.footer.value else DefaultFooter(today);
    var meta :=
      if p.meta.Some? then p.meta.value
      else Meta(Some(SummaryVersion), Some(generatedAt), Some(OrEmpty(patientId)), Some(OrEmpty(userId)));
    PatientSummary(
      patient, GetOr(p.summary, ""), primaryAlert,
      GetOr(p.chronicConditions, []), GetOr(p.historyTimeline, []), GetOr(p.labTests, []),
      GetOr(p.medications, []), GetOr(p.doctors, []), GetOr(p.emergencyContacts, []),
      footer, meta)
  }

  /** A prediction that carries every field of a summary (and no loose attributes). */
  function AsPrediction(s: PatientSummary): (p: SummaryPrediction)
    ensures p.patient == Some(s.patient) && p.footer == Some(s.footer) && p.meta == Some(s.meta)
  {
    SummaryPrediction(
      Some(s.patient), None, None, None, None, Some(s.summary),
      Some(s.primaryAlert), None, None,
      Some(s.chronicConditions), Some(s.historyTimeline), Some(s.labTests),
      Some(s.medications), Some(s.doctors), Some(s.emergencyContacts),
      Some(s.footer), Some(s.meta))
  }

  /** A prediction that already has every field passes through unchanged: the ids and the
      clock only ever enter through defaults. Together with the ensures of Synthesize this
      also makes defaulting idempotent. */
  lemma CompletePredictionPassesThrough(s: PatientSummary, patientId: Option<string>,
                                        userId: Option<string>, today: string, generatedAt: string)
    ensures Synthesize(AsPrediction(s), patientId, userId, today, generatedAt) == s
  {
  }

  /** Defaulting is idempotent: feeding a synthesized summary back through the defaulting
      changes nothing, whatever ids and clock the second pass sees. */
  lemma SynthesizeIdempotent(p: SummaryPrediction, patientId: Option<string>, userId: Option<string>,
                             today: string, generatedAt: string,
                             patientId2: Option<string>, userId2: Option<string>,
                             today2: string, generatedAt2: string)
    ensures var s := Synthesize(p, patientId, userId, today, generatedAt);
            Synthesize(AsPrediction(s), patientId2, userId2, today2, generatedAt2) == s
  {
    CompletePredictionPassesThrough(Synthesize(p, patientId, userId, today, generatedAt),
                                    patientId2, userId2, today2, generatedAt2);
  }

  /** A prediction with no fields at all. */
  function EmptyPrediction(): (p: SummaryPrediction)
    ensures p.patient.None? && p.footer.None? && p.meta.None? && p.summary.None?
  {
    SummaryPrediction(None, None, None, None, None, None, None, None, None,
                      None, None, None, None, None, None, None, None)
  }

  /** Scenario: the capability returns only a summary text and a patient name. Everything
      else takes its documented default. */
  lemma OnlySummaryAndName(summaryText: string, name: string, patientId: string, userId: string,
                           today: string, generatedAt: string)
    ensures
      var p := EmptyPrediction().(summary := Some(summaryText), patientName := Some(name));
      Synthesize(p, Some(patientId), Some(userId), today, generatedAt) ==
        PatientSummary(
          PatientBlock(Some(patientId), Some(name), Some(""), Some(""), Some("")), summaryText,
          PrimaryAlert(Some(""), Some("")),
          [], [], [], [], [], [],
          Footer(Some(today), Some("Ayurlekha App"), Some("Not a Medical Document"), Some(Disclaimer)),
          Meta(Some("1.0"), Some(generatedAt), Some(patientId), Some(userId)))
  {
  }

  /** Scenario: the capability returns a patient block holding only a name. The block is
      passed on as it is: its other keys stay absent, and neither the patient id nor the
      loose attributes fill them. */
  lemma PartialPatientBlockKept(name: string, dob: string, patientId: string, userId: string,
                                today: string, generatedAt: string)
    ensures
      var block := PatientBlock(None, Some(name), None, None, None);
      var p := EmptyPrediction().(patient := Some(block), dob := Some(dob));
      Synthesize(p, Some(patientId), Some(userId), today, generatedAt).patient == block
  {
  }
}

=== FILE: text.dfy ===
/** String building blocks shared by the messages, paths and reports. */
module Text {

  /** Python's `sep.join(items)`. */
  function Join(items: seq<string>, sep: string): (r: string)
    ensures items == [] ==> r == ""
    ensures |items| == 1 ==> r == items[0]
  {
    if |items| == 0 then ""
    else if |items| == 1 then items[0]
    else items[0] + sep + Join(items[1..], sep)
  }

  /** Joining one more item appends the separator and the item. */
  lemma {:induction false} JoinAppend(items: seq<string>, x: string, sep: string)
    requires items != []
    ensures Join(items + [x], sep) == Join(items, sep) + sep + x
  {
    if |items| == 1 {
      assert items + [x] == [items[0], x];
      assert [items[0], x][1..] == [x];
    } else {
      assert (items + [x])[1..] == items[1..] + [x];
      JoinAppend(items[1..], x, sep);
    }
  }

  predicate IsDigits(s: string) {
    forall i :: 0 <= i < |s| ==> '0' <= s[i] <= '9'
  }

  /** The digit character for d. */
  function DigitChar(d: nat): (c: char)
    requires d < 10
    ensures '0' <= c <= '9' && c as int - '0' as int == d
  {
    ('0' as int + d) as char
  }

  /** Reference definition: the number a string of decimal digits denotes, read from the
      most significant digit. */
  function DecimalValue(s: string): nat
    requires IsDigits(s)
  {
    if |s| == 0 then 0
    else 10 * DecimalValue(s[..|s| - 1]) + (s[|s| - 1] as int - '0' as int)
  }

  /** Decimal rendering of a natural number, as Python's `str(n)`: digits without a leading
      zero that denote n. */
  function NatToString(n: nat): (r: string)
    ensures |r| >= 1 && IsDigits(r)
    ensures |r| > 1 ==> r[0] != '0'
    ensures DecimalValue(r) == n
  {
    if n < 10 then [DigitChar(n)]
    else
      var r := NatToString(n / 10) + [DigitChar(n % 10)];
      assert r[..|r| - 1] == NatToString(n / 10);
      r
  }

  /** Decimal rendering of an integer, as Python's `str(i)`: a minus sign for negatives,
      then the digits of the magnitude. */
  function IntToString(i: int): (r: string)
    ensures |r| >= 1
    ensures i >= 0 ==> IsDigits(r) && DecimalValue(r) == i
    ensures i < 0 ==> r[0] == '-' && IsDigits(r[1..]) && DecimalValue(r[1..]) == -i
  {
    if i >= 0 then NatToString(i)
    else
      var r := "-" + NatToString(-i);
      assert r[1..] == NatToString(-i);
      r
  }

  /** Where the parts of a three-part concatenation sit. */
  lemma PartsOf3(a: string, b: string, c: string)
    ensures (a + b + c)[..|a|] == a
    ensures (a + b + c)[|a|..|a| + |b|] == b
    ensures (a + b + c)[|a| + |b|..] == c
  {
  }

  /** The tail of a concatenation after its first part is the second part. */
  lemma Tail(a: string, b: string)
    ensures (a + b)[|a|..] == b
  {
  }

  /** Different integers render differently: the text gives back the number. */
  lemma IntToStringInjective(a: int, b: int)
    requires IntToString(a) == IntToString(b)
    ensures a == b
  {
  }
}

=== FILE: web_tools.dfy ===
/** The web-search tool used to check medicine names: a bounded retry loop around an
    opaque search call, and the query it is asked. */
module WebTools {
  import opened Wrappers
  import opened Text

  /** What one call of the search backend does: returns its result text, or raises
      an exception whose message is `error`. */
  datatype Attempt = Found(result: string) | Raised(error: string)

  /** The search backend: `search(query, k)` is what attempt number k (from 0) does. */
  type SearchBackend = (string, nat) -> Attempt

  /** Default retry budget of the search wrapper. */
  const DefaultMaxRetries: int := 3

  /** Words appended to a medicine name to make the web query. */
  const QuerySuffix: string := " drug medication pharmaceutical"

  /** 2 to the power k: the integer part of the backoff after failed attempt k. */
  function Pow2(k: nat): (r: nat)
    ensures r >= 1
  {
    if k == 0 then 1 else 2 * Pow2(k - 1)
  }

  /** Opening words of both failure texts. */
  const FailurePrefix: string := "Web search verification failed after "

  /** Result text when the last permitted attempt raised `error`: the retry budget in
      decimal after the opening words, and the error's message verbatim at the end. */
  function ExhaustedMessage(maxRetries: int, error: string): (r: string)
    ensures |FailurePrefix| + |IntToString(maxRetries)| + |error| <= |r|
    ensures r[..|FailurePrefix|] == FailurePrefix
    ensures r[|FailurePrefix|..|FailurePrefix| + |IntToString(maxRetries)|] == IntToString(maxRetries)
    ensures r[|r| - |error|..] == error
  {
    var digits := IntToString(maxRetries);
    PartsOf3(FailurePrefix, digits, " attempts: " + error);
    FailurePrefix + digits + (" attempts: " + error)
  }

  /** Result text when the loop makes no attempt at all (a retry budget of zero or less):
      the retry budget in decimal after the opening words, ending with a full stop. */
  function NoAttemptMessage(maxRetries: int): (r: string)
    ensures |FailurePrefix| + |IntToString(maxRetries)| < |r|
    ensures r[..|FailurePrefix|] == FailurePrefix
    ensures r[|FailurePrefix|..|FailurePrefix| + |IntToString(maxRetries)|] == IntToString(maxRetries)
    ensures r[|r| - 1] == '.'
  {
    var digits := IntToString(maxRetries);
    PartsOf3(FailurePrefix, digits, " attempts.");
    FailurePrefix + digits + " attempts."
  }

  /** The retry loop: tries the search up to `maxRetries` times and returns the first
      result; never raises. `attempts` counts the calls made and `backoffs` lists the
      integer base of each wait taken between two attempts, in order. */
  method SearchWebAsync(query: string, maxRetries: int, search: SearchBackend)
    returns (r: string, attempts: nat, backoffs: seq<nat>)
    ensures maxRetries <= 0 ==> attempts == 0 && r == NoAttemptMessage(maxRetries)
    ensures maxRetries > 0 ==> 1 <= attempts <= maxRetries
    ensures forall k :: 0 <= k < attempts - 1 ==> search(query, k).Raised?
    ensures attempts > 0 && search(query, attempts - 1).Found? ==>
              r == search(query, attempts - 1).result
    ensures attempts > 0 && search(query, attempts - 1).Raised? ==>
              attempts == maxRetries && r == ExhaustedMessage(maxRetries, search(query, attempts - 1).error)
    ensures |backoffs| == (if attempts == 0 then 0 else attempts - 1)
    ensures forall k :: 0 <= k < |backoffs| ==> backoffs[k] == Pow2(k)
  {
    attempts, backoffs := 0, [];
    var attempt: nat := 0;
    while attempt < maxRetries
      invariant attempt <= (if maxRetries > 0 then maxRetries - 1 else 0)
      invariant attempts == attempt && |backoffs| == attempt
      invariant forall k :: 0 <= k < attempt ==> search(query, k).Raised?
      invariant forall k :: 0 <= k < |backoffs| ==> backoffs[k] == Pow2(k)
    {
      attempts := attempt + 1;
      match search(query, attempt)
      case Found(result) =>
        r := result;
        return;
      case Raised(error) =>
        if attempt < maxRetries - 1 {
          backoffs := backoffs + [Pow2(attempt)];
          attempt := attempt + 1;
        } else {
          r := ExhaustedMessage(maxRetries, error);
          return;
        }
    }
    r := NoAttemptMessage(maxRetries);
  }

  /** The web query built for a medicine name: the name followed by the fixed suffix. */
  function MedicineSearchQuery(name: string): (q: string)
    ensures |q| == |name| + |QuerySuffix|
    ensures q[..|name|] == name && q[|name|..] == QuerySuffix
  {
    name + QuerySuffix
  }

  /** Recovers the medicine name from a query, if the query has the fixed suffix. */
  function MedicineOfSearchQuery(q: string): (r: Option<string>)
    ensures r.Some? <==> |q| >= |QuerySuffix| && q[|q| - |QuerySuffix|..] == QuerySuffix
    ensures r.Some? ==> r.value + QuerySuffix == q
  {
    if |q| >= |QuerySuffix| && q[|q| - |QuerySuffix|..] == QuerySuffix
    then Some(q[..|q| - |QuerySuffix|])
    else None
  }

  /** The query loses nothing: the medicine name can be read back from it, so
      distinct names give distinct queries. */
  lemma SearchQueryRoundTrip(name: string)
    ensures MedicineOfSearchQuery(MedicineSearchQuery(name)) == Some(name)
  {
    var q := MedicineSearchQuery(name);
    assert q[|q| - |QuerySuffix|..] == QuerySuffix;
    assert q[..|q| - |QuerySuffix|] == name;
  }

  /** `web_verify_medicine`: the retry loop with the default budget of three, on the
      medicine's query. */
  method WebVerifyMedicine(name: string, search: SearchBackend)
    returns (r: string, attempts: nat, backoffs: seq<nat>)
    ensures 1 <= attempts <= DefaultMaxRetries && |backoffs| == attempts - 1
    ensures forall k :: 0 <= k < attempts - 1 ==> search(MedicineSearchQuery(name), k).Raised?
    ensures search(MedicineSearchQuery(name), attempts - 1).Found? ==>
              r == search(MedicineSearchQuery(name), attempts - 1).result
    ensures search(MedicineSearchQuery(name), attempts - 1).Raised? ==>
              attempts == DefaultMaxRetries &&
              r == ExhaustedMessage(DefaultMaxRetries, search(MedicineSearchQuery(name), attempts - 1).error)
  {
    r, attempts, backoffs := SearchWebAsync(MedicineSearchQuery(name), DefaultMaxRetries, search);
  }
}

=== FILE: wrappers.dfy ===
/** Optional values, and the three states a key of a loosely typed row can be in. */
module Wrappers {

  datatype Option<+T> = None | Some(value: T)

  /** A key of a database row or a dictionary: absent (reading it raises KeyError),
      present but null (Python None), or present with a value. */
  datatype Field<+T> = Missing | Null | Value(value: T)

  /** Python's `x or ""` for an optional string: None and "" both give "". */
  function OrEmpty(o: Option<string>): (r: string)
    ensures o.Some? ==> r == o.value
    ensures o.None? ==> r == ""
  {
    match o
    case Some(s) => s
    case None => ""
  }
}
